=== FILE: README.md ===
# infoset SNMP query core, modelled in Dafny

This project models two parts of infoset, a tool that polls network devices
over SNMP and saves one YAML snapshot per host:

- **Three MIB query modules.**
  - CISCO-VTP-MIB (`CiscoVtp`): VLAN name, type and state (layer 2), and the trunk ports' dynamic state, dynamic status and native VLAN (layer 1).
  - ETHERLIKE-MIB (`EtherLike`): each port's duplex status (layer 1).
  - SNMPv2-MIB (`SnmpV2`): the six scalars of the `system` group.

  Each module has the same parts:
  - a `supported` probe;
  - attribute helpers, each of which walks one column and re-keys it by integer instance index;
  - layer extractors, which merge several columns into one record per index.
- **The `run` command of the toolbox (`Toolbox.DoRun`).**
  - It stages one `<host>.yaml` per host with working credentials in a fresh temporary directory.
  - After the loop, it empties or creates the permanent directory.
  - It then moves the staged files into the permanent directory and removes the temporary one.

## The model's parts

**SNMP transport.** The transport bound to one host is the immutable value `Snmp.Device`:
- `oidExists` is the existence probe;
- `get` gives the values of a normalized GET, in order;
- `walk` maps each instance's trailing index, as text, to its normalized value.

A query object only holds its transport, so each query operation is a method taking the `Device`.

**Python exceptions** become `Failure` results:
- `int(key)` on a walked key that is not a number;
- UTF-8 decoding errors;
- `bytes()` of a negative number;
- `getvalues[i]` past the end of the list.

Python evaluates `d[int(key)] = conv(value)` right-hand side first, so the model reports a conversion error before a bad key.

**Walk order.** `sorted(results.items())` is modelled as a loop that takes the least remaining key each time. The order is Python's `str` order (`Builtins.Below`). Two keys such as `"07"` and `"7"` parse to the same index, and then the one later in that order wins.

**UTF-8** is concrete: the well-formed sequences of section 4 of RFC 3629. Round trips are proved in both directions.

**The filesystem** is a class holding a map from directory to files. `validate.credentials()`, `everything()` and `dict2yaml` are the functions of `Toolbox.Services`. `mkdtemp`'s new name is a parameter.

**Behaviour of the code worth knowing, which the model keeps:**
- `system()` nests its result as MIB name → attribute → `0` → value (lib/snmp/mib_snmpv2.py:85-93).
- The helpers sort instance keys as `str`, so "24" comes before "3". In the model this decides only which of two colliding keys wins, because results are maps; the order of the returned dict is listed under "## Left out".
- A UTF-8 decode error in `vtpvlanname` (lib/snmp/mib_ciscovtp.py:210) is not caught: it aborts the helper and the whole `layer2`.
- An `everything()` that raises (bin/toolbox.py:160) aborts the whole run. The temporary directory is left behind with the files staged so far, and the permanent directory is untouched.

## Model

| member | source | states |
|---|---|---|
| Builtins.Decimal | lib/snmp/mib_snmpv2.py:79 | `str(node)` is a non-empty run of digits without a leading zero |
| Builtins.DecimalValue | lib/snmp/mib_snmpv2.py:79 | the digits of `str(n)` denote n |
| Builtins.ParseDecimal | lib/snmp/mib_ciscovtp.py:142 | `int()` reads back `str(n)` and `"-" + str(n)` as n and -n |
| Builtins.ParseInt | lib/snmp/mib_ciscovtp.py:142 | `int()` on a `str`: optional sign and decimal digits, else ValueError (None); its partners are ParseDecimal and LeadingZeros |
| Builtins.LeadingZeros | lib/snmp/mib_ciscovtp.py:141-142 | every index n is what `int()` makes of `str(n)` behind any number of zeros, so many walked keys can name one index |
| Builtins.Below | lib/snmp/mib_ciscovtp.py:141 | the `str` order `sorted()` uses: code point by code point, a proper prefix first; the four lemmas below prove it a strict total order |
| Builtins.Sorted | lib/snmp/mib_ciscovtp.py:141 | `sorted()` of a key set; SortedFacts proves it lists each key once, in ascending order |
| Builtins.AnyIndex | lib/snmp/mib_ciscovtp.py:77 | iterating a dict yields some key still to visit; which one is left open |
| Builtins.BelowIrreflexive | lib/snmp/mib_ciscovtp.py:141 | the `str` order of `sorted()` is irreflexive |
| Builtins.BelowAsymmetric | lib/snmp/mib_ciscovtp.py:141 | the `str` order is asymmetric |
| Builtins.BelowTransitive | lib/snmp/mib_ciscovtp.py:141 | the `str` order is transitive |
| Builtins.BelowTotal | lib/snmp/mib_ciscovtp.py:141 | any two distinct strings are ordered one way or the other |
| Builtins.LeastExists | lib/snmp/mib_ciscovtp.py:141 | every non-empty key set has a least key, which the loop visits next |
| Builtins.GreatestExists | lib/snmp/mib_ciscovtp.py:141 | every non-empty key set has a greatest key |
| Builtins.GreatestUnique | lib/snmp/mib_ciscovtp.py:141 | the greatest key is unique |
| Builtins.SortedFacts | lib/snmp/mib_ciscovtp.py:141 | `sorted` lists each key once, only keys of the set, in ascending order |
| Builtins.SortedSplit | lib/snmp/mib_ciscovtp.py:141 | the sorted keys end with the greatest key |
| Builtins.SortedHas | lib/snmp/mib_ciscovtp.py:141 | every key of the set has a position in the sorted list |
| Builtins.SortedAppend | lib/snmp/mib_ciscovtp.py:141 | adding a key above all others appends it to the sorted list |
| Builtins.SortedPrefix | lib/snmp/mib_ciscovtp.py:141 | the keys below all the rest form a prefix of the sorted list |
| Utf8.Decode | lib/snmp/mib_ciscovtp.py:210 | the strict 'utf-8' codec: text, or None for UnicodeDecodeError; DecodeEncode and EncodeDecode are its partners |
| Utf8.DecodeFirst | lib/snmp/mib_ciscovtp.py:210 | a decoded sequence is between 1 and the remaining length long |
| Utf8.EncodeChar | lib/snmp/mib_ciscovtp.py:210 | a character encodes to between 1 and 4 bytes |
| Utf8.DecodeFirstEncodeChar | lib/snmp/mib_ciscovtp.py:210 | decoding the front of an encoded character gives that character and its length |
| Utf8.DecodeFirstIsEncoding | lib/snmp/mib_ciscovtp.py:210 | a well-formed sequence is exactly the encoding of the character it decodes to |
| Utf8.DecodeEncode | lib/snmp/mib_ciscovtp.py:210 | decoding the encoding of any text gives the text back |
| Utf8.EncodeDecode | lib/snmp/mib_ciscovtp.py:210 | bytes that decode re-encode to themselves, so only well-formed UTF-8 is accepted |
| Utf8.AcceptedBytes | lib/snmp/mib_ciscovtp.py:210 | bytes that decode contain no 0xC0, no 0xC1 and nothing from 0xF5 up, wherever they stand |
| Utf8.DecodeZeros | lib/snmp/mib_ciscovtp.py:210 | `str(bytes(n), 'utf-8')` is n NUL characters |
| Snmp.Device | lib/snmp/mib_ciscovtp.py:26-37 | the transport a query object holds: `oid_exists`, a normalized GET in its order, and a normalized walk keyed by trailing index; it is data, so every query of one `Device` sees the same answers |
| Snmp.TextOf | lib/snmp/mib_ciscovtp.py:210 | decoding octets succeeds exactly when they are UTF-8, giving the decoded text, else a decode error |
| Snmp.BytesAsText | lib/snmp/mib_ciscovtp.py:210 | `str(bytes(v), encoding='utf-8')`: octets decoded, a non-negative integer n gives n NULs, a negative integer or text raises |
| Snmp.DecodeUtf8 | lib/snmp/mib_snmpv2.py:85-90 | `v.decode('utf-8')`: only octets decode; anything else raises |
| Snmp.Ascii | lib/snmp/mib_snmpv2.py:87 | the text `int()` reads from `bytes`: defined exactly when every octet is ASCII, one character per octet; IntOf uses it |
| Snmp.IntOf | lib/snmp/mib_snmpv2.py:87 | `int(v)`: integers unchanged, text and ASCII octets parsed, else ValueError |
| Snmp.ConversionsYieldTheirType | lib/snmp/mib_snmpv2.py:85-90 | decoding yields text, `int()` yields an integer and leaves integers alone, and both decodings agree on octets |
| MibRecord.Convert | lib/snmp/mib_ciscovtp.py:142 | what a helper stores for a walked value: the value itself (line 142) or `str(bytes(value), encoding='utf-8')` (line 210), whose failures BytesAsText lists |
| MibRecord.Step | lib/snmp/mib_ciscovtp.py:141-142 | one `data_dict[int(key)] = value` pass: the value is converted before the key is parsed |
| MibRecord.Fold | lib/snmp/mib_ciscovtp.py:141-142 | the loop body applied to the keys in the given order |
| MibRecord.ColumnOf | lib/snmp/mib_ciscovtp.py:139-145 | a helper's result on a `Device`: walk one OID, then the sorted loop over its results (Indexed); every helper's `ensures` names it |
| MibRecord.Indexed | lib/snmp/mib_ciscovtp.py:140-145 | a helper's result: the loop over the walk's keys in sorted order; IndexedProperties characterises it |
| MibRecord.StepSucceeds | lib/snmp/mib_ciscovtp.py:142 | one store succeeds exactly when the value converts and the key parses |
| MibRecord.StepKeys | lib/snmp/mib_ciscovtp.py:142 | one store adds exactly the key's index |
| MibRecord.FailureSticks | lib/snmp/mib_ciscovtp.py:141-142 | once a store has raised, later keys do not change the outcome |
| MibRecord.FoldSucceeds | lib/snmp/mib_ciscovtp.py:141-142 | the loop succeeds exactly when every visited key parses and every value converts |
| MibRecord.FoldKeys | lib/snmp/mib_ciscovtp.py:141-142 | the loop's indices are exactly the parsed visited keys |
| MibRecord.FoldLastWins | lib/snmp/mib_ciscovtp.py:141-142 | a key's value is stored unless a later key has the same index |
| MibRecord.IndexedSucceeds | lib/snmp/mib_ciscovtp.py:141-142 | a helper fails exactly when some walked key is not an integer or some value does not convert |
| MibRecord.IndexedKeys | lib/snmp/mib_ciscovtp.py:141-142 | a helper's keys are exactly the integers of the walked keys |
| MibRecord.IndexedLastWins | lib/snmp/mib_ciscovtp.py:141-142 | among keys with the same index, the last in sorted order supplies the value |
| MibRecord.IndexedEmpty | lib/getdata/snmp/mib_etherlike.py:96-105 | an empty walk gives an empty column |
| MibRecord.IndexedProperties | lib/snmp/mib_ciscovtp.py:136-145 | the three facts above, for every key at once |
| MibRecord.FoldAppend | lib/snmp/mib_ciscovtp.py:141-142 | visiting one more key is one more store |
| MibRecord.FoldPrefixFails | lib/snmp/mib_ciscovtp.py:141-142 | a failing prefix of the sorted keys fails the whole loop |
| MibRecord.SortedNext | lib/snmp/mib_ciscovtp.py:141 | the least unvisited key extends the visited keys' sorted list |
| MibRecord.NextKey | lib/snmp/mib_ciscovtp.py:141-142 | one pass of the loop stores the least unvisited key |
| MibRecord.NextKeyFails | lib/snmp/mib_ciscovtp.py:141-142 | a pass that raises decides the helper's result |
| MibRecord.PlainColumnHolds | lib/snmp/mib_ciscovtp.py:136-145 | a helper storing values unchanged fails exactly on a non-integer key, and otherwise has exactly the walked indices, each with its walked value |
| MibRecord.TextColumnHolds | lib/snmp/mib_ciscovtp.py:205-213 | a helper storing decoded text fails exactly on a bad key or undecodable value, and otherwise holds each index's decoded text |
| MibRecord.IndexWalk | lib/snmp/mib_ciscovtp.py:140-142 | the helper loop computes the specified column: success condition, key set and last-wins values |
| MibRecord.RowOf | lib/snmp/mib_ciscovtp.py:78 | `final[key]`: the record already there, or the empty record the nested `defaultdict` creates on first use; MergeRow and MergeColumnFacts use it |
| MibRecord.MergeColumn | lib/snmp/mib_ciscovtp.py:77-78 | `final` after one attribute's merge loop; MergeColumnFacts states its properties |
| MibRecord.MergeColumnFacts | lib/snmp/mib_ciscovtp.py:77-78 | merging a column adds its attribute to each of its indices and leaves every other attribute and record as it was |
| MibRecord.MergeKeys | lib/snmp/mib_ciscovtp.py:77-78 | the merged indices are the old ones plus the column's |
| MibRecord.MergeStep | lib/snmp/mib_ciscovtp.py:77-78 | merging one more index is one record update |
| MibRecord.Merge | lib/snmp/mib_ciscovtp.py:77-78 | the merge loop computes the merged records, whatever order the dict yields |
| MibRecord.MergeOne | lib/getdata/snmp/mib_etherlike.py:78-80 | one column merged into nothing gives one single-attribute record per index |
| MibRecord.MergeRow | lib/snmp/mib_ciscovtp.py:77-78 | a merge adds the column's cell to the record at each index |
| MibRecord.MergeThree | lib/snmp/mib_ciscovtp.py:73-91 | three merges give the union of indices, each record the sum of the three cells |
| MibRecord.ThreeCells | lib/snmp/mib_ciscovtp.py:73-91 | with distinct attributes, a record holds an attribute exactly when its column has the index, with that column's value |
| MibRecord.MergedLayer | lib/snmp/mib_ciscovtp.py:73-91 | the shared body of `layer2` and `layer1`: three helpers called in order, each raising error ending the layer, then each column merged into `final`; MergedLayerFacts characterises it |
| MibRecord.MergedLayerFacts | lib/snmp/mib_ciscovtp.py:73-91 | a three-column layer succeeds iff every helper does, raises the first helper error, and has the union of indices with exact attribute presence and values |
| CiscoVtp.Supported | lib/snmp/mib_ciscovtp.py:50-60 | true exactly when the vtpVlanState column OID exists |
| CiscoVtp.Layer2Of | lib/snmp/mib_ciscovtp.py:73-91 | `layer2()` as a value: MergedLayer over vtpVlanName, vtpVlanType and vtpVlanState, in that order; Layer2 and MergedLayerFacts state its properties |
| CiscoVtp.Layer1Of | lib/snmp/mib_ciscovtp.py:104-122 | `layer1()` as a value: MergedLayer over dynamic state, dynamic status and native VLAN, in that order; Layer1 and MergedLayerFacts state its properties |
| CiscoVtp.VlanTrunkPortNativeVlan | lib/snmp/mib_ciscovtp.py:124-145 | walks `...46.1.6.1.1.5`: fails on a non-integer key, else each index holds its walked value |
| CiscoVtp.VlanTrunkPortDynamicStatus | lib/snmp/mib_ciscovtp.py:147-168 | the same for `...46.1.6.1.1.14` |
| CiscoVtp.VlanTrunkPortDynamicState | lib/snmp/mib_ciscovtp.py:170-191 | the same for `...46.1.6.1.1.13` |
| CiscoVtp.VtpVlanName | lib/snmp/mib_ciscovtp.py:193-213 | walks `...46.1.3.1.1.4` and stores UTF-8-decoded names; undecodable octets make it fail |
| CiscoVtp.VtpVlanType | lib/snmp/mib_ciscovtp.py:215-235 | walks `...46.1.3.1.1.3`, values unchanged |
| CiscoVtp.VtpVlanState | lib/snmp/mib_ciscovtp.py:237-257 | walks `...46.1.3.1.1.2`, values unchanged |
| CiscoVtp.Layer2 | lib/snmp/mib_ciscovtp.py:62-91 | succeeds iff all three helpers do; indices are the union of theirs; a record has vtpVlanName, vtpVlanType or vtpVlanState exactly when that helper returned the index, with its value |
| CiscoVtp.Layer1 | lib/snmp/mib_ciscovtp.py:93-122 | the same for vlanTrunkPortDynamicState, vlanTrunkPortDynamicStatus and vlanTrunkPortNativeVlan |
| EtherLike.Supported | lib/getdata/snmp/mib_etherlike.py:51-62 | true exactly when the dot3StatsDuplexStatus column `.1.3.6.1.2.1.10.7.2.1.19` exists on the injected transport |
| EtherLike.Layer1Of | lib/getdata/snmp/mib_etherlike.py:64-83 | `layer1()` as a value: the duplex helper's error, or its column merged as `final[key]['dot3StatsDuplexStatus'] = value`; Layer1 states its properties |
| EtherLike.Dot3StatsDuplexStatus | lib/getdata/snmp/mib_etherlike.py:85-105 | fails on a non-integer key, else each index holds its walked value |
| EtherLike.Layer1 | lib/getdata/snmp/mib_etherlike.py:64-83 | same indices as the helper, each record exactly `{dot3StatsDuplexStatus: value}`; helper errors propagate; an empty walk gives an empty result |
| SnmpV2.Supported | lib/snmp/mib_snmpv2.py:48-58 | true exactly when `.1.3.6.1.2.1.1.1.0` exists |
| SnmpV2.SystemOid | lib/snmp/mib_snmpv2.py:77-79 | the OID is `.1.3.6.1.2.1.1.` then the node number then `.0`, and the node reads back from it |
| SnmpV2.Gathered | lib/snmp/mib_snmpv2.py:73-82 | `getvalues` after the loop: the placeholder 0, then every GET's values in node order; Gather computes it and GatheredSingles is its partner |
| SnmpV2.Collected | lib/snmp/mib_snmpv2.py:78-82 | the values of the GETs on nodes 1..n appended in node order; CollectedSingles is its partner |
| SnmpV2.LineDecoding | lib/snmp/mib_snmpv2.py:85-90 | the conversion each line of `system()` applies: `int()` on line 3 (sysUpTime), `.decode('utf-8')` on the other five; Assign, AssignFirstError and System use it |
| SnmpV2.Field | lib/snmp/mib_snmpv2.py:85-90 | `getvalues[i]` converted, IndexError when the list is too short |
| SnmpV2.Assign | lib/snmp/mib_snmpv2.py:85-93 | the six assignments in order, the first raising line deciding the error; AssignFacts, AssignFirstError and AssignShort characterise it |
| SnmpV2.Record | lib/snmp/mib_snmpv2.py:85-90 | the six attributes, each holding only the key 0 with its value |
| SnmpV2.AppendAll | lib/snmp/mib_snmpv2.py:81-82 | appends every value a GET returned, in order |
| SnmpV2.Gather | lib/snmp/mib_snmpv2.py:73-82 | GETs nodes 1 to 6 in ascending order; `getvalues` is 0 followed by all returned values |
| SnmpV2.SystemOf | lib/snmp/mib_snmpv2.py:60-94 | `system()` as a value: Assign applied to Gathered; System computes it and AssignFacts, AssignFirstError and AssignShort state its properties |
| SnmpV2.System | lib/snmp/mib_snmpv2.py:60-94 | one top-level key 'SNMPv2-MIB'; six attributes each keyed by 0 alone; sysUpTime an integer, the rest text; fewer than six values gathered fails, and when the values that are there all convert the error is IndexError at the first missing position |
| SnmpV2.AssignFacts | lib/snmp/mib_snmpv2.py:85-93 | succeeds iff there are seven entries and each conversion succeeds; each attribute holds the conversion of its position |
| SnmpV2.AssignFirstError | lib/snmp/mib_snmpv2.py:85-90 | when line i is the first whose `getvalues[i]` or conversion raises, `system()` raises that line's error |
| SnmpV2.AssignShort | lib/snmp/mib_snmpv2.py:85-90 | with fewer than seven entries, all present ones converting, `system()` raises IndexError at the first missing position |
| SnmpV2.CollectedSingles | lib/snmp/mib_snmpv2.py:78-82 | if each GET returns one value, the m-th collected value came from node m |
| SnmpV2.GatheredSingles | lib/snmp/mib_snmpv2.py:73-82 | if each GET returns one value, `getvalues[N]` is node N's value |
| Toolbox.FileSystem.constructor | bin/toolbox.py:119-180 | starts from the given directories |
| Toolbox.FileSystem.IsDir | bin/toolbox.py:175 | `os.path.isdir`: true exactly when the path is a directory of the filesystem; Commit empties the permanent directory when it holds and creates it otherwise |
| Toolbox.FileSystem.MakeTempDir | bin/toolbox.py:131 | adds a new, empty directory under an unused name |
| Toolbox.FileSystem.MakeDirs | bin/toolbox.py:178 | creates the missing directory, empty |
| Toolbox.FileSystem.DeleteFiles | bin/toolbox.py:134 | empties the directory, nothing else changes |
| Toolbox.FileSystem.WriteFile | bin/toolbox.py:164-166 | creates or overwrites one file, nothing else changes |
| Toolbox.FileSystem.MoveFiles | bin/toolbox.py:179 | moves every file of one directory into another |
| Toolbox.FileSystem.RemoveDir | bin/toolbox.py:180 | removes an empty directory |
| Toolbox.FileName | bin/toolbox.py:164 | a host's file is the host name followed by `.yaml` |
| Toolbox.StageHost | bin/toolbox.py:137-166 | one pass of the host loop: skip without credentials, stop when `everything()` raises, else write `<host>.yaml` |
| Toolbox.Staged | bin/toolbox.py:137-166 | the temporary directory's files after the loop over the hosts; StagedSucceeds, StagedFiles and StagedContent characterise it |
| Toolbox.StagedNext | bin/toolbox.py:137-166 | one more host is one more loop pass |
| Toolbox.RaisedSticks | bin/toolbox.py:159-160 | once a query raises, the run stays failed |
| Toolbox.CommitResult | bin/toolbox.py:175-180 | the commit steps give the staged files in the permanent directory and no temporary one |
| Toolbox.StageHosts | bin/toolbox.py:137-171 | hosts validated in order; a skipped host writes nothing; only the temporary directory changes; a raising query stops the loop |
| Toolbox.Commit | bin/toolbox.py:175-180 | the permanent directory ends with exactly the staged files, and the temporary directory is gone |
| Toolbox.DoRun | bin/toolbox.py:119-180 | success iff no query raises; on success, the permanent directory holds exactly the staged set, the temporary one is gone, and every host was validated in order; on failure, the permanent directory and all else are untouched |
| Toolbox.FileNameInjective | bin/toolbox.py:164 | distinct hosts get distinct files |
| Toolbox.StagedSucceeds | bin/toolbox.py:148-166 | the loop completes exactly when every host with credentials has a query that does not raise |
| Toolbox.StagedFiles | bin/toolbox.py:148-166 | the staged files are exactly `<host>.yaml` for hosts with credentials |
| Toolbox.StagedContent | bin/toolbox.py:157-166 | a host's file holds `dict2yaml(everything())`; a repeated host rewrites it |
| Toolbox.NoFileWithoutCredentials | bin/toolbox.py:148-154 | a host without credentials, or one not configured, has no staged file |

## Left out

- `int()` as the model reads it: an optional sign and ASCII digits. Whitespace, underscores and non-ASCII digits are not modelled.
- Transport:
  - failures, timeouts and BER encoding, which are handled in `snmp_manager.Interact`, which lies outside the model; its results are given as data;
  - the order of calls, which is not observable for `walk` and `oid_exists`, since `Device` is a pure value. For `system()`, the order of the GETs is recorded in `Gather`'s ghost `asked`.
- Python dict insertion order (the helpers' dicts iterate in sorted `str` key order), and the `defaultdict` type itself: results are plain maps. The effect of auto-vivification on a merge is modelled, by `MibRecord.RowOf`'s empty record for a new index. `Merge` picks the column's indices in an unspecified order.
- `supported()`: the `is True` test against a non-boolean is not modelled, because `oidExists` returns a `bool`.
- `__init__`: the query object is reduced to the `Device` it holds.
- `Toolbox.DoRun`:
  - the verbose `print` calls;
  - `main`, `do_config` and `do_test`;
  - `bin/agents/linux_passive.py`;
  - the configuration reads, `config.hosts()` and `config.snmp_directory()`, which become parameters.
- `Toolbox.Services`: `Validate.credentials()`, `Query.everything()` and `dict2yaml` are abstract functions; the rule that picks the credentials is left abstract. Only `everything()` may raise in the model: `Validate.credentials()` (bin/toolbox.py:140) and `dict2yaml` (bin/toolbox.py:161) are taken never to raise, so an exception from either, which would abort the run as a raising `everything()` does, is not modelled, and `Toolbox.DoRun`'s "success iff no query raises" rests on that.
- `Toolbox.FileSystem`:
  - host names containing `/`;
  - sub-directories inside the staged directories;
  - failures of `makedirs`, `open`, `move` and `rmdir`.
- `Toolbox.FileSystem.MakeDirs`: directories are a flat map from path to files, so `os.makedirs` creating missing parent directories, and the mode 0o755 it sets, are not modelled.
- `Toolbox.Commit`: crash atomicity between emptying the permanent directory and moving the files in.
- `Toolbox.DoRun`: `mkdtemp`'s random name is a parameter. It must be unused and differ from the permanent directory.
- Exception messages and their text. Errors are named by cause, not by Python class: `BadValue` stands for TypeError (`bytes()` of a `str`), AttributeError (`.decode` on a non-bytes value) and ValueError (`bytes()` of a negative number, `int()` of bad text). `BadIndex` (`int(key)`) and `NotUtf8` (UnicodeDecodeError) are both ValueError in Python.

=== FILE: builtins.dfy ===
/**
 * The Python built-ins the MIB query modules lean on: `int()` applied to an
 * instance key, `str()` of a small number when an OID is formatted, and the
 * ordering `sorted()` uses on `str` keys.
 */
module Builtins {
  import opened Wrappers

  predicate IsDigit(c: char) {
    '0' <= c <= '9'
  }

  predicate AllDigits(s: string) {
    forall i :: 0 <= i < |s| ==> IsDigit(s[i])
  }

  /** The number a non-empty run of decimal digits denotes (leading zeros allowed). */
  function DigitsValue(s: string): nat
    requires AllDigits(s)
    decreases |s|
  {
    if s == [] then 0
    else DigitsValue(s[..|s| - 1]) * 10 + (s[|s| - 1] as int - '0' as int)
  }

  /**
   * `int(s)` on a `str`: an optional sign followed by one or more decimal
   * digits; anything else raises ValueError, modelled as None.
   */
  function ParseInt(s: string): Option<int> {
    if |s| > 1 && (s[0] == '+' || s[0] == '-') && AllDigits(s[1..]) then
      Some(if s[0] == '-' then -(DigitsValue(s[1..]) as int) else DigitsValue(s[1..]))
    else if |s| > 0 && AllDigits(s) then
      Some(DigitsValue(s))
    else
      None
  }

  function DigitChar(d: nat): (c: char)
    requires d < 10
    ensures IsDigit(c) && c as int - '0' as int == d
  {
    ('0' as int + d) as char
  }

  /** `str(n)` for a natural number: its decimal digits, without leading zeros. */
  function Decimal(n: nat): (s: string)
    ensures |s| > 0 && AllDigits(s)
    ensures s[0] != '0' || n == 0
    decreases n
  {
    if n < 10 then [DigitChar(n)] else Decimal(n / 10) + [DigitChar(n % 10)]
  }

  lemma {:induction false} DecimalValue(n: nat)
    ensures DigitsValue(Decimal(n)) == n
    decreases n
  {
    if n >= 10 {
      DecimalValue(n / 10);
      var s := Decimal(n);
      assert s[..|s| - 1] == Decimal(n / 10);
    }
  }

  /** `int(str(n)) == n`, and `int('-' + str(n)) == -n`. */
  lemma ParseDecimal(n: nat)
    ensures ParseInt(Decimal(n)) == Some(n)
    ensures ParseInt("-" + Decimal(n)) == Some(-(n as int))
  {
    DecimalValue(n);
    assert ("-" + Decimal(n))[1..] == Decimal(n);
  }

  /** Digits made of zeros only. */
  function Zeros(z: nat): (s: string)
    ensures |s| == z && AllDigits(s)
  {
    seq(z, _ => '0')
  }

  /** Zeros in front of a run of digits do not change the number it denotes. */
  lemma {:induction false} ZerosValue(z: nat, s: string)
    requires AllDigits(s)
    ensures AllDigits(Zeros(z) + s) && DigitsValue(Zeros(z) + s) == DigitsValue(s)
    decreases |s|
  {
    var t := Zeros(z) + s;
    if s == [] {
      assert t == Zeros(z);
      ZerosOnly(z);
    } else {
      ZerosValue(z, s[..|s| - 1]);
      assert t[..|t| - 1] == Zeros(z) + s[..|s| - 1];
    }
  }

  lemma {:induction false} ZerosOnly(z: nat)
    ensures DigitsValue(Zeros(z)) == 0
    decreases z
  {
    if z > 0 {
      ZerosOnly(z - 1);
      assert Zeros(z)[..z - 1] == Zeros(z - 1);
    }
  }

  /**
   * `int()` accepts leading zeros, so every index has unboundedly many
   * spellings as a walked key ("7", "07", "007", ...) that all parse to it.
   */
  lemma LeadingZeros(n: nat, z: nat)
    ensures ParseInt(Zeros(z) + Decimal(n)) == Some(n)
  {
    ZerosValue(z, Decimal(n));
    DecimalValue(n);
    var t := Zeros(z) + Decimal(n);
    assert IsDigit(t[0]);
  }

  /** `a < b` on Python `str` values: code point by code point, a proper prefix first. */
  predicate Below(a: string, b: string)
    decreases |a|
  {
    if a == [] then b != []
    else b != [] && (a[0] < b[0] || (a[0] == b[0] && Below(a[1..], b[1..])))
  }

  lemma {:induction false} BelowIrreflexive(a: string)
    ensures !Below(a, a)
    decreases |a|
  {
    if a != [] {
      BelowIrreflexive(a[1..]);
    }
  }

  lemma {:induction false} BelowAsymmetric(a: string, b: string)
    requires Below(a, b)
    ensures !Below(b, a)
    decreases |a|
  {
    if a != [] && a[0] == b[0] && Below(a[1..], b[1..]) {
      BelowAsymmetric(a[1..], b[1..]);
    }
  }

  lemma {:induction false} BelowTransitive(a: string, b: string, c: string)
    requires Below(a, b) && Below(b, c)
    ensures Below(a, c)
    decreases |a|
  {
    if a != [] && a[0] == b[0] && b[0] == c[0] {
      BelowTransitive(a[1..], b[1..], c[1..]);
    }
  }

  lemma {:induction false} BelowTotal(a: string, b: string)
    requires a != b
    ensures Below(a, b) || Below(b, a)
    decreases |a|
  {
    if a != [] && b != [] && a[0] == b[0] {
      assert a == [a[0]] + a[1..] && b == [b[0]] + b[1..];
      BelowTotal(a[1..], b[1..]);
    }
  }

  predicate IsGreatest(m: string, keys: set<string>) {
    m in keys && forall k :: k in keys && k != m ==> Below(k, m)
  }

  predicate IsLeast(m: string, keys: set<string>) {
    m in keys && forall k :: k in keys && k != m ==> Below(m, k)
  }

  lemma {:induction false} GreatestExists(keys: set<string>)
    requires keys != {}
    ensures exists m :: IsGreatest(m, keys)
    decreases keys
  {
    var k :| k in keys;
    if keys == {k} {
      assert IsGreatest(k, keys);
    } else {
      GreatestExists(keys - {k});
      var m :| IsGreatest(m, keys - {k});
      if Below(k, m) {
        assert IsGreatest(m, keys);
      } else {
        BelowTotal(k, m);
        forall x | x in keys && x != k
          ensures Below(x, k)
        {
          if x != m {
            BelowTransitive(x, m, k);
          }
        }
        assert IsGreatest(k, keys);
      }
    }
  }

  lemma {:induction false} LeastExists(keys: set<string>)
    requires keys != {}
    ensures exists m :: IsLeast(m, keys)
    decreases keys
  {
    var k :| k in keys;
    if keys == {k} {
      assert IsLeast(k, keys);
    } else {
      LeastExists(keys - {k});
      var m :| IsLeast(m, keys - {k});
      if Below(m, k) {
        assert IsLeast(m, keys);
      } else {
        BelowTotal(k, m);
        forall x | x in keys && x != k
          ensures Below(k, x)
        {
          if x != m {
            BelowTransitive(k, m, x);
          }
        }
        assert IsLeast(k, keys);
      }
    }
  }

  lemma GreatestUnique(m1: string, m2: string, keys: set<string>)
    requires IsGreatest(m1, keys) && IsGreatest(m2, keys)
    ensures m1 == m2
  {
    if m1 != m2 {
      BelowAsymmetric(m1, m2);
    }
  }

  ghost predicate Ascending(s: seq<string>) {
    forall i, j :: 0 <= i < j < |s| ==> Below(s[i], s[j])
  }

  /** The keys of a `str`-keyed dict in the order `sorted()` yields them. */
  ghost function Sorted(keys: set<string>): seq<string>
    decreases keys
  {
    if keys == {} then []
    else
      GreatestExists(keys);
      var m :| IsGreatest(m, keys);
      Sorted(keys - {m}) + [m]
  }

  /** `sorted()` lists as many keys as there are, each of them a key, in ascending order. */
  lemma {:induction false} SortedFacts(keys: set<string>)
    ensures |Sorted(keys)| == |keys|
    ensures forall i :: 0 <= i < |Sorted(keys)| ==> Sorted(keys)[i] in keys
    ensures Ascending(Sorted(keys))
    decreases keys
  {
    if keys != {} {
      var m := SortedSplit(keys);
      SortedFacts(keys - {m});
    }
  }

  /** The greatest key goes last, after the sorted rest. */
  lemma SortedSplit(keys: set<string>) returns (m: string)
    requires keys != {}
    ensures IsGreatest(m, keys)
    ensures Sorted(keys) == Sorted(keys - {m}) + [m]
  {
    GreatestExists(keys);
    m :| IsGreatest(m, keys);
    forall m' | IsGreatest(m', keys)
      ensures m' == m
    {
      GreatestUnique(m', m, keys);
    }
  }

  /** Every key appears in `sorted()`'s output; `i` is where. */
  lemma {:induction false} SortedHas(keys: set<string>, k: string) returns (i: nat)
    requires k in keys
    ensures i < |Sorted(keys)| && Sorted(keys)[i] == k
    decreases keys
  {
    var m := SortedSplit(keys);
    SortedFacts(keys - {m});
    if k == m {
      i := |Sorted(keys - {m})|;
    } else {
      i := SortedHas(keys - {m}, k);
    }
  }

  /** A key above every key already present goes last. */
  lemma SortedAppend(keys: set<string>, k: string)
    requires k !in keys
    requires forall x :: x in keys ==> Below(x, k)
    ensures Sorted(keys + {k}) == Sorted(keys) + [k]
  {
    var all := keys + {k};
    assert IsGreatest(k, all);
    forall m | IsGreatest(m, all)
      ensures m == k
    {
      GreatestUnique(m, k, all);
    }
    assert all - {k} == keys;
  }

  /** Sorting a set that lies wholly below the rest of a bigger set gives a prefix. */
  lemma {:induction false} SortedPrefix(small: set<string>, big: set<string>)
    requires small <= big
    requires forall a, b :: a in small && b in big - small ==> Below(a, b)
    ensures Sorted(small) <= Sorted(big)
    decreases big
  {
    if big != small {
      GreatestExists(big);
      var m :| IsGreatest(m, big);
      assert !(big <= small);
      var y :| y in big && y !in small;
      if m in small {
        assert Below(m, y) && Below(y, m);
        BelowAsymmetric(m, y);
      }
      var rest := big - {m};
      assert rest + {m} == big;
      SortedAppend(rest, m);
      SortedPrefix(small, rest);
    }
  }

  /** Some element of a non-empty set of integers; which one is left open, as with dict iteration order. */
  method AnyIndex(s: set<int>) returns (k: int)
    requires s != {}
    ensures k in s
  {
    // A hint for the solver, which does not always derive an element from `s != {}`
    // on its own: the branch is impossible, and proving so shows `s` has an element.
    if forall x :: x !in s {
      assert false;
    }
    k :| k in s;
  }
}

=== FILE: mib_ciscovtp.dfy ===
/**
 * The CISCO-VTP-MIB query: VLAN names, types and states (layer 2) and the
 * trunk ports' dynamic state, dynamic status and native VLAN (layer 1).
 * The query object only holds its transport, so every operation takes the
 * `Device` it would query.
 */
module CiscoVtp {
  import opened Wrappers
  import opened Snmp
  import opened MibRecord

  const NativeVlanOid: Oid := ".1.3.6.1.4.1.9.9.46.1.6.1.1.5"
  const DynamicStatusOid: Oid := ".1.3.6.1.4.1.9.9.46.1.6.1.1.14"
  const DynamicStateOid: Oid := ".1.3.6.1.4.1.9.9.46.1.6.1.1.13"
  const VlanNameOid: Oid := ".1.3.6.1.4.1.9.9.46.1.3.1.1.4"
  const VlanTypeOid: Oid := ".1.3.6.1.4.1.9.9.46.1.3.1.1.3"
  /** The vtpVlanState column, which is also the probe for support. */
  const VlanStateOid: Oid := ".1.3.6.1.4.1.9.9.46.1.3.1.1.2"

  /** `supported()`: one existence probe; the probe OID is the vtpVlanState column. */
  method Supported(d: Device) returns (validity: bool)
    ensures validity <==> d.oidExists(VlanStateOid)
  {
    validity := false;
    if d.oidExists(VlanStateOid) {
      validity := true;
    }
  }

  method VlanTrunkPortNativeVlan(d: Device) returns (r: Result<Column, Error>)
    ensures r == ColumnOf(d, NativeVlanOid, Unchanged)
    ensures PlainColumn(r, d.walk(NativeVlanOid))
  {
    r := IndexWalk(d.walk(NativeVlanOid), Unchanged);
    PlainColumnHolds(d.walk(NativeVlanOid));
  }

  method VlanTrunkPortDynamicStatus(d: Device) returns (r: Result<Column, Error>)
    ensures r == ColumnOf(d, DynamicStatusOid, Unchanged)
    ensures PlainColumn(r, d.walk(DynamicStatusOid))
  {
    r := IndexWalk(d.walk(DynamicStatusOid), Unchanged);
    PlainColumnHolds(d.walk(DynamicStatusOid));
  }

  method VlanTrunkPortDynamicState(d: Device) returns (r: Result<Column, Error>)
    ensures r == ColumnOf(d, DynamicStateOid, Unchanged)
    ensures PlainColumn(r, d.walk(DynamicStateOid))
  {
    r := IndexWalk(d.walk(DynamicStateOid), Unchanged);
    PlainColumnHolds(d.walk(DynamicStateOid));
  }

  /** The only helper that converts: each name is decoded from its octets as UTF-8. */
  method VtpVlanName(d: Device) returns (r: Result<Column, Error>)
    ensures r == ColumnOf(d, VlanNameOid, AsText)
    ensures TextColumn(r, d.walk(VlanNameOid))
  {
    r := IndexWalk(d.walk(VlanNameOid), AsText);
    TextColumnHolds(d.walk(VlanNameOid));
  }

  method VtpVlanType(d: Device) returns (r: Result<Column, Error>)
    ensures r == ColumnOf(d, VlanTypeOid, Unchanged)
    ensures PlainColumn(r, d.walk(VlanTypeOid))
  {
    r := IndexWalk(d.walk(VlanTypeOid), Unchanged);
    PlainColumnHolds(d.walk(VlanTypeOid));
  }

  method VtpVlanState(d: Device) returns (r: Result<Column, Error>)
    ensures r == ColumnOf(d, VlanStateOid, Unchanged)
    ensures PlainColumn(r, d.walk(VlanStateOid))
  {
    r := IndexWalk(d.walk(VlanStateOid), Unchanged);
    PlainColumnHolds(d.walk(VlanStateOid));
  }

  /** `layer2()`: vtpVlanName, then vtpVlanType, then vtpVlanState merged per VLAN index. */
  ghost function Layer2Of(d: Device): Result<Rows, Error> {
    MergedLayer("vtpVlanName", ColumnOf(d, VlanNameOid, AsText),
                "vtpVlanType", ColumnOf(d, VlanTypeOid, Unchanged),
                "vtpVlanState", ColumnOf(d, VlanStateOid, Unchanged))
  }

  /** `layer1()`: dynamic state, then dynamic status, then native VLAN merged per port index. */
  ghost function Layer1Of(d: Device): Result<Rows, Error> {
    MergedLayer("vlanTrunkPortDynamicState", ColumnOf(d, DynamicStateOid, Unchanged),
                "vlanTrunkPortDynamicStatus", ColumnOf(d, DynamicStatusOid, Unchanged),
                "vlanTrunkPortNativeVlan", ColumnOf(d, NativeVlanOid, Unchanged))
  }

  method Layer2(d: Device) returns (r: Result<Rows, Error>)
    ensures r == Layer2Of(d)
    ensures r.Success? <==>
      ColumnOf(d, VlanNameOid, AsText).Success? && ColumnOf(d, VlanTypeOid, Unchanged).Success?
      && ColumnOf(d, VlanStateOid, Unchanged).Success?
    ensures r.Success? ==>
      var name, kind, state := ColumnOf(d, VlanNameOid, AsText).value,
        ColumnOf(d, VlanTypeOid, Unchanged).value, ColumnOf(d, VlanStateOid, Unchanged).value;
      && r.value.Keys == name.Keys + kind.Keys + state.Keys
      && forall k :: k in r.value ==>
        && r.value[k].Keys == Named("vtpVlanName", name, k) + Named("vtpVlanType", kind, k)
             + Named("vtpVlanState", state, k)
        && (k in name ==> r.value[k]["vtpVlanName"] == name[k])
        && (k in kind ==> r.value[k]["vtpVlanType"] == kind[k])
        && (k in state ==> r.value[k]["vtpVlanState"] == state[k])
  {
    MergedLayerFacts("vtpVlanName", ColumnOf(d, VlanNameOid, AsText),
                     "vtpVlanType", ColumnOf(d, VlanTypeOid, Unchanged),
                     "vtpVlanState", ColumnOf(d, VlanStateOid, Unchanged));
    var final: Rows := map[];
    var values :- VtpVlanName(d);
    final := Merge(final, "vtpVlanName", values);
    values :- VtpVlanType(d);
    final := Merge(final, "vtpVlanType", values);
    values :- VtpVlanState(d);
    final := Merge(final, "vtpVlanState", values);
    r := Success(final);
  }

  method Layer1(d: Device) returns (r: Result<Rows, Error>)
    ensures r == Layer1Of(d)
    ensures r.Success? <==>
      ColumnOf(d, DynamicStateOid, Unchanged).Success? && ColumnOf(d, DynamicStatusOid, Unchanged).Success?
      && ColumnOf(d, NativeVlanOid, Unchanged).Success?
    ensures r.Success? ==>
      var state, status, native := ColumnOf(d, DynamicStateOid, Unchanged).value,
        ColumnOf(d, DynamicStatusOid, Unchanged).value, ColumnOf(d, NativeVlanOid, Unchanged).value;
      && r.value.Keys == state.Keys + status.Keys + native.Keys
      && forall k :: k in r.value ==>
        && r.value[k].Keys == Named("vlanTrunkPortDynamicState", state, k)
             + Named("vlanTrunkPortDynamicStatus", status, k) + Named("vlanTrunkPortNativeVlan", native, k)
        && (k in state ==> r.value[k]["vlanTrunkPortDynamicState"] == state[k])
        && (k in status ==> r.value[k]["vlanTrunkPortDynamicStatus"] == status[k])
        && (k in native ==> r.value[k]["vlanTrunkPortNativeVlan"] == native[k])
  {
    MergedLayerFacts("vlanTrunkPortDynamicState", ColumnOf(d, DynamicStateOid, Unchanged),
                     "vlanTrunkPortDynamicStatus", ColumnOf(d, DynamicStatusOid, Unchanged),
                     "vlanTrunkPortNativeVlan", ColumnOf(d, NativeVlanOid, Unchanged));
    var final: Rows := map[];
    var values :- VlanTrunkPortDynamicState(d);
    final := Merge(final, "vlanTrunkPortDynamicState", values);
    values :- VlanTrunkPortDynamicStatus(d);
    final := Merge(final, "vlanTrunkPortDynamicStatus", values);
    values :- VlanTrunkPortNativeVlan(d);
    final := Merge(final, "vlanTrunkPortNativeVlan", values);
    r := Success(final);
  }
}

=== FILE: mib_etherlike.dfy ===
/**
 * The ETHERLIKE-MIB query: each port's duplex status (layer 1). The query
 * object only holds the transport handed to it, so every operation takes
 * the `Device` it would query.
 */
module EtherLike {
  import opened Wrappers
  import opened Snmp
  import opened MibRecord

  /** The dot3StatsDuplexStatus column, which is also the probe for support. */
  const DuplexStatusOid: Oid := ".1.3.6.1.2.1.10.7.2.1.19"

  /** `supported()`: one existence probe on the dot3StatsDuplexStatus column. */
  method Supported(d: Device) returns (validity: bool)
    ensures validity <==> d.oidExists(DuplexStatusOid)
  {
    validity := false;
    if d.oidExists(DuplexStatusOid) {
      validity := true;
    }
  }

  method Dot3StatsDuplexStatus(d: Device) returns (r: Result<Column, Error>)
    ensures r == ColumnOf(d, DuplexStatusOid, Unchanged)
    ensures PlainColumn(r, d.walk(DuplexStatusOid))
  {
    r := IndexWalk(d.walk(DuplexStatusOid), Unchanged);
    PlainColumnHolds(d.walk(DuplexStatusOid));
  }

  /** `layer1()`: the duplex column, one single-attribute record per port index. */
  ghost function Layer1Of(d: Device): Result<Rows, Error> {
    var column :- ColumnOf(d, DuplexStatusOid, Unchanged);
    Success(MergeColumn(map[], "dot3StatsDuplexStatus", column))
  }

  method Layer1(d: Device) returns (r: Result<Rows, Error>)
    ensures r == Layer1Of(d)
    ensures r.Success? <==> ColumnOf(d, DuplexStatusOid, Unchanged).Success?
    ensures r.Failure? ==> r.error == ColumnOf(d, DuplexStatusOid, Unchanged).error
    ensures r.Success? ==>
      var column := ColumnOf(d, DuplexStatusOid, Unchanged).value;
      && r.value.Keys == column.Keys
      && forall k :: k in r.value ==> r.value[k] == map["dot3StatsDuplexStatus" := column[k]]
    ensures d.walk(DuplexStatusOid) == map[] ==> r == Success(map[])
  {
    if d.walk(DuplexStatusOid) == map[] {
      IndexedEmpty(Unchanged);
    }
    var final: Rows := map[];
    var values :- Dot3StatsDuplexStatus(d);
    MergeOne("dot3StatsDuplexStatus", values);
    final := Merge(final, "dot3StatsDuplexStatus", values);
    r := Success(final);
  }
}

=== FILE: mib_record.dfy ===
/**
 * The pattern every MIB query module follows: an attribute helper walks one
 * OID and re-keys the results by integer instance index, and a layer
 * extractor merges several such columns into one record per index
 * (index -> attribute -> value).
 */
module MibRecord {
  import opened Wrappers
  import opened Builtins
  import opened Snmp

  /** What an attribute helper does to each walked value before storing it. */
  datatype Conversion = Unchanged | AsText

  function Convert(conv: Conversion, v: Value): Result<Value, Error> {
    match conv
    case Unchanged => Success(v)
    case AsText => BytesAsText(v)
  }

  /** One column: instance index -> value. */
  type Column = map<int, Value>
  /** One record: attribute name -> value. */
  type Row = map<string, Value>
  type Rows = map<int, Row>

  /**
   * One iteration of `data_dict[int(key)] = <converted value>`: Python
   * evaluates the value before the key, so a conversion error wins over a bad key.
   */
  function Step(acc: Result<Column, Error>, key: string, v: Value, conv: Conversion): Result<Column, Error> {
    if acc.Failure? then acc
    else
      match Convert(conv, v)
      case Failure(e) => Failure(e)
      case Success(x) =>
        match ParseInt(key)
        case None => Failure(BadIndex(key))
        case Some(n) => Success(acc.value[n := x])
  }

  /** The helper's loop run over `keys` in order. */
  function Fold(keys: seq<string>, results: map<string, Value>, conv: Conversion): Result<Column, Error>
    requires forall i :: 0 <= i < |keys| ==> keys[i] in results
    decreases |keys|
  {
    if keys == [] then Success(map[])
    else
      var last := keys[|keys| - 1];
      Step(Fold(keys[..|keys| - 1], results, conv), last, results[last], conv)
  }

  /** The helper's loop after it has stored the keys in `done`, visited in sorted order. */
  ghost function Run(results: map<string, Value>, conv: Conversion, done: set<string>): Result<Column, Error>
    requires done <= results.Keys
  {
    SortedFacts(done);
    Fold(Sorted(done), results, conv)
  }

  /** What an attribute helper returns for a walk's `results`: the loop over `sorted(results.items())`. */
  ghost function Indexed(results: map<string, Value>, conv: Conversion): Result<Column, Error> {
    Run(results, conv, results.Keys)
  }

  /** The column an attribute helper builds by walking `oid` on `d`. */
  ghost function ColumnOf(d: Device, oid: Oid, conv: Conversion): Result<Column, Error> {
    Indexed(d.walk(oid), conv)
  }

  ghost predicate Storable(results: map<string, Value>, conv: Conversion, key: string)
    requires key in results
  {
    ParseInt(key).Some? && Convert(conv, results[key]).Success?
  }

  /** The integer indices the keys of a walk parse to. */
  ghost function Indices(results: map<string, Value>): set<int> {
    set k | k in results && ParseInt(k).Some? :: ParseInt(k).value
  }

  /** `key` comes last in sorted order among the keys that parse to its index. */
  ghost predicate LastOfIndex(results: map<string, Value>, key: string) {
    forall k :: k in results && k != key && ParseInt(k) == ParseInt(key) ==> Below(k, key)
  }

  lemma FailureSticks(keys: seq<string>, more: seq<string>, results: map<string, Value>, conv: Conversion)
    requires forall i :: 0 <= i < |keys| ==> keys[i] in results
    requires forall i :: 0 <= i < |more| ==> more[i] in results
    requires Fold(keys, results, conv).Failure?
    ensures Fold(keys + more, results, conv) == Fold(keys, results, conv)
    decreases |more|
  {
    if more != [] {
      assert (keys + more)[..|keys + more| - 1] == keys + more[..|more| - 1];
      FailureSticks(keys, more[..|more| - 1], results, conv);
    } else {
      assert keys + more == keys;
    }
  }

  lemma StepSucceeds(acc: Result<Column, Error>, key: string, v: Value, conv: Conversion)
    ensures Step(acc, key, v, conv).Success? <==> acc.Success? && ParseInt(key).Some? && Convert(conv, v).Success?
  {
  }

  lemma {:induction false} FoldSucceeds(keys: seq<string>, results: map<string, Value>, conv: Conversion)
    requires forall i :: 0 <= i < |keys| ==> keys[i] in results
    ensures Fold(keys, results, conv).Success? <==> forall i :: 0 <= i < |keys| ==> Storable(results, conv, keys[i])
    decreases |keys|
  {
    if keys != [] {
      var init, last := keys[..|keys| - 1], keys[|keys| - 1];
      FoldSucceeds(init, results, conv);
      StepSucceeds(Fold(init, results, conv), last, results[last], conv);
      assert forall i :: 0 <= i < |init| ==> init[i] == keys[i];
    }
  }

  lemma StepKeys(acc: Result<Column, Error>, key: string, v: Value, conv: Conversion)
    requires Step(acc, key, v, conv).Success?
    ensures acc.Success? && ParseInt(key).Some?
    ensures Step(acc, key, v, conv).value.Keys == acc.value.Keys + {ParseInt(key).value}
  {
  }

  lemma {:induction false} FoldKeys(keys: seq<string>, results: map<string, Value>, conv: Conversion)
    requires forall i :: 0 <= i < |keys| ==> keys[i] in results
    requires Fold(keys, results, conv).Success?
    ensures forall i :: 0 <= i < |keys| ==> ParseInt(keys[i]).Some? && ParseInt(keys[i]).value in Fold(keys, results, conv).value
    ensures forall n :: n in Fold(keys, results, conv).value ==> exists i :: 0 <= i < |keys| && ParseInt(keys[i]) == Some(n)
    decreases |keys|
  {
    if keys != [] {
      var init, last := keys[..|keys| - 1], keys[|keys| - 1];
      var before := Fold(init, results, conv);
      var after := Fold(keys, results, conv);
      StepKeys(before, last, results[last], conv);
      FoldKeys(init, results, conv);
      forall i | 0 <= i < |keys|
        ensures ParseInt(keys[i]).Some? && ParseInt(keys[i]).value in after.value
      {
        if i < |init| {
          assert keys[i] == init[i];
        }
      }
      forall n | n in after.value
        ensures exists i :: 0 <= i < |keys| && ParseInt(keys[i]) == Some(n)
      {
        if n != ParseInt(last).value {
          var i :| 0 <= i < |init| && ParseInt(init[i]) == Some(n);
          assert keys[i] == init[i];
        } else {
          assert ParseInt(keys[|keys| - 1]) == Some(n);
        }
      }
    }
  }

  lemma {:induction false} FoldLastWins(keys: seq<string>, results: map<string, Value>, conv: Conversion, i: nat)
    requires forall j :: 0 <= j < |keys| ==> keys[j] in results
    requires Fold(keys, results, conv).Success?
    requires i < |keys|
    requires forall j :: i < j < |keys| ==> ParseInt(keys[j]) != ParseInt(keys[i])
    ensures ParseInt(keys[i]).Some? && Convert(conv, results[keys[i]]).Success?
    ensures ParseInt(keys[i]).value in Fold(keys, results, conv).value
    ensures Fold(keys, results, conv).value[ParseInt(keys[i]).value] == Convert(conv, results[keys[i]]).value
    decreases |keys|
  {
    if i < |keys| - 1 {
      var init := keys[..|keys| - 1];
      FoldLastWins(init, results, conv, i);
    }
  }

  /** A helper fails exactly when some walked key is not an integer or some value does not convert. */
  lemma IndexedSucceeds(results: map<string, Value>, conv: Conversion)
    ensures Indexed(results, conv).Success? <==> forall k :: k in results ==> Storable(results, conv, k)
  {
    var s := Sorted(results.Keys);
    SortedFacts(results.Keys);
    FoldSucceeds(s, results, conv);
    if forall i :: 0 <= i < |s| ==> Storable(results, conv, s[i]) {
      forall k | k in results
        ensures Storable(results, conv, k)
      {
        var i := SortedHas(results.Keys, k);
      }
    }
  }

  /** The keys of a helper's result are exactly the integers its walked keys parse to. */
  lemma IndexedKeys(results: map<string, Value>, conv: Conversion)
    requires Indexed(results, conv).Success?
    ensures Indexed(results, conv).value.Keys == Indices(results)
  {
    var s := Sorted(results.Keys);
    SortedFacts(results.Keys);
    FoldKeys(s, results, conv);
    var m := Indexed(results, conv).value;
    forall n | n in Indices(results)
      ensures n in m
    {
      var k :| k in results && ParseInt(k).Some? && ParseInt(k).value == n;
      var i := SortedHas(results.Keys, k);
    }
    forall n | n in m
      ensures n in Indices(results)
    {
      var i :| 0 <= i < |s| && ParseInt(s[i]) == Some(n);
      assert s[i] in results;
    }
  }

  /**
   * Each walked value is stored, converted, under its key's index, unless a
   * key later in sorted order parses to the same index and overwrites it.
   */
  lemma IndexedLastWins(results: map<string, Value>, conv: Conversion, key: string)
    requires Indexed(results, conv).Success?
    requires key in results && LastOfIndex(results, key)
    ensures ParseInt(key).Some? && Convert(conv, results[key]).Success?
    ensures ParseInt(key).value in Indexed(results, conv).value
    ensures Indexed(results, conv).value[ParseInt(key).value] == Convert(conv, results[key]).value
  {
    var s := Sorted(results.Keys);
    SortedFacts(results.Keys);
    var i := SortedHas(results.Keys, key);
    forall j | i < j < |s|
      ensures ParseInt(s[j]) != ParseInt(s[i])
    {
      assert Below(s[i], s[j]);
      if ParseInt(s[j]) == ParseInt(key) {
        if s[j] == key {
          BelowIrreflexive(key);
        } else {
          BelowAsymmetric(s[j], key);
        }
      }
    }
    FoldLastWins(s, results, conv, i);
  }

  /** An empty walk gives an empty column. */
  lemma IndexedEmpty(conv: Conversion)
    ensures Indexed(map[], conv) == Success(map[])
  {
    assert Sorted({}) == [];
  }

  /** The three facts above, for every key at once. */
  lemma IndexedProperties(results: map<string, Value>, conv: Conversion)
    ensures Indexed(results, conv).Success? <==> forall k :: k in results ==> Storable(results, conv, k)
    ensures Indexed(results, conv).Success? ==> Indexed(results, conv).value.Keys == Indices(results)
    ensures Indexed(results, conv).Success? ==> forall k :: k in results && LastOfIndex(results, k) ==>
      Indexed(results, conv).value[ParseInt(k).value] == Convert(conv, results[k]).value
  {
    IndexedSucceeds(results, conv);
    if Indexed(results, conv).Success? {
      IndexedKeys(results, conv);
      forall k | k in results && LastOfIndex(results, k)
        ensures Indexed(results, conv).value[ParseInt(k).value] == Convert(conv, results[k]).value
      {
        IndexedLastWins(results, conv, k);
      }
    }
  }

  lemma FoldAppend(keys: seq<string>, key: string, results: map<string, Value>, conv: Conversion)
    requires forall i :: 0 <= i < |keys| ==> keys[i] in results
    requires key in results
    ensures Fold(keys + [key], results, conv) == Step(Fold(keys, results, conv), key, results[key], conv)
  {
    assert (keys + [key])[..|keys|] == keys;
  }

  lemma FoldPrefixFails(prefix: seq<string>, whole: seq<string>, results: map<string, Value>, conv: Conversion)
    requires forall i :: 0 <= i < |whole| ==> whole[i] in results
    requires prefix <= whole
    requires Fold(prefix, results, conv).Failure?
    ensures Fold(whole, results, conv) == Fold(prefix, results, conv)
  {
    assert whole == prefix + whole[|prefix|..];
    FailureSticks(prefix, whole[|prefix|..], results, conv);
  }

  /** The least key not yet visited extends the sorted prefix by one. */
  lemma SortedNext(all: set<string>, done: set<string>, key: string)
    requires done <= all && key in all && key !in done
    requires forall a, b :: a in done && b in all - done ==> Below(a, b)
    requires IsLeast(key, all - done)
    ensures Sorted(done + {key}) == Sorted(done) + [key]
    ensures Sorted(done + {key}) <= Sorted(all)
  {
    SortedAppend(done, key);
    SortedPrefix(done + {key}, all);
  }

  /** Storing the least key not yet stored extends the sorted prefix by one step. */
  lemma NextKey(results: map<string, Value>, conv: Conversion, done: set<string>, key: string)
    requires done <= results.Keys && key in results && key !in done
    requires forall a, b :: a in done && b in results.Keys - done ==> Below(a, b)
    requires IsLeast(key, results.Keys - done)
    ensures Run(results, conv, done + {key}) == Step(Run(results, conv, done), key, results[key], conv)
  {
    SortedNext(results.Keys, done, key);
    SortedFacts(done);
    FoldAppend(Sorted(done), key, results, conv);
  }

  /** If storing the next key raises, the whole helper raises that error. */
  lemma NextKeyFails(results: map<string, Value>, conv: Conversion, done: set<string>, key: string)
    requires done <= results.Keys && key in results && key !in done
    requires forall a, b :: a in done && b in results.Keys - done ==> Below(a, b)
    requires IsLeast(key, results.Keys - done)
    requires Run(results, conv, done + {key}).Failure?
    ensures Indexed(results, conv) == Run(results, conv, done + {key})
  {
    SortedNext(results.Keys, done, key);
    SortedFacts(results.Keys);
    FoldPrefixFails(Sorted(done + {key}), Sorted(results.Keys), results, conv);
  }

  /**
   * What a helper that stores walked values unchanged returns: it fails
   * exactly when some walked key is not an integer, and otherwise maps each
   * key's index to that key's value (the last key in sorted order winning).
   */
  ghost predicate PlainColumn(r: Result<Column, Error>, results: map<string, Value>) {
    && (r.Success? <==> forall k :: k in results ==> ParseInt(k).Some?)
    && (r.Success? ==> r.value.Keys == Indices(results))
    && (r.Success? ==> forall k :: k in results && LastOfIndex(results, k) ==>
         ParseInt(k).value in r.value && r.value[ParseInt(k).value] == results[k])
  }

  /**
   * What a helper that stores `str(bytes(value), encoding='utf-8')` returns:
   * it fails exactly when some key is not an integer or some value does not
   * decode, and otherwise maps each key's index to that key's decoded text.
   */
  ghost predicate TextColumn(r: Result<Column, Error>, results: map<string, Value>) {
    && (r.Success? <==> forall k :: k in results ==> ParseInt(k).Some? && BytesAsText(results[k]).Success?)
    && (r.Success? ==> r.value.Keys == Indices(results))
    && (r.Success? ==> forall k :: k in results && LastOfIndex(results, k) ==>
         ParseInt(k).value in r.value && r.value[ParseInt(k).value] == BytesAsText(results[k]).value)
  }

  lemma PlainColumnHolds(results: map<string, Value>)
    ensures PlainColumn(Indexed(results, Unchanged), results)
  {
    IndexedProperties(results, Unchanged);
    if Indexed(results, Unchanged).Success? {
      forall k | k in results && LastOfIndex(results, k)
        ensures ParseInt(k).value in Indexed(results, Unchanged).value
      {
        IndexedLastWins(results, Unchanged, k);
      }
    }
  }

  lemma TextColumnHolds(results: map<string, Value>)
    ensures TextColumn(Indexed(results, AsText), results)
  {
    IndexedProperties(results, AsText);
    if Indexed(results, AsText).Success? {
      forall k | k in results && LastOfIndex(results, k)
        ensures ParseInt(k).value in Indexed(results, AsText).value
      {
        IndexedLastWins(results, AsText, k);
      }
    }
  }

  /**
   * An attribute helper's loop (`for key, value in sorted(results.items())`):
   * each pass takes the least key not yet stored.
   */
  method IndexWalk(results: map<string, Value>, conv: Conversion) returns (r: Result<Column, Error>)
    ensures r == Indexed(results, conv)
    ensures r.Success? <==> forall k :: k in results ==> Storable(results, conv, k)
    ensures r.Success? ==> r.value.Keys == Indices(results)
    ensures r.Success? ==> forall k :: k in results && LastOfIndex(results, k) ==>
      r.value[ParseInt(k).value] == Convert(conv, results[k]).value
  {
    IndexedProperties(results, conv);
    var data: Column := map[];
    var todo := results.Keys;
    while todo != {}
      invariant todo <= results.Keys
      invariant forall a, b :: a in results.Keys - todo && b in todo ==> Below(a, b)
      invariant Run(results, conv, results.Keys - todo) == Success(data)
      decreases todo
    {
      LeastExists(todo);
      var key :| IsLeast(key, todo);
      ghost var done := results.Keys - todo;
      assert results.Keys - done == todo;
      NextKey(results, conv, done, key);
      var value := Convert(conv, results[key]);
      if value.Failure? {
        NextKeyFails(results, conv, done, key);
        return Failure(value.error);
      }
      var index := ParseInt(key);
      if index.None? {
        NextKeyFails(results, conv, done, key);
        return Failure(BadIndex(key));
      }
      data := data[index.value := value.value];
      todo := todo - {key};
      assert results.Keys - todo == done + {key};
    }
    assert results.Keys - todo == results.Keys;
    r := Success(data);
  }

  /** `final[k]`, or the empty record the nested defaultdict creates on first use. */
  function RowOf(rows: Rows, k: int): Row {
    if k in rows then rows[k] else map[]
  }

  /**
   * `final` after `for key, value in column.items(): final[key][attr] = value`:
   * every index of the column gains the attribute, and nothing else moves.
   */
  function MergeColumn(rows: Rows, attr: string, column: Column): Rows {
    map k | k in rows.Keys + column.Keys :: if k in column then RowOf(rows, k)[attr := column[k]] else rows[k]
  }

  /**
   * Merging one attribute's column: every index of the column gains the
   * attribute with the column's value, records outside the column are left
   * as they were, and no other attribute of any record appears, disappears
   * or changes.
   */
  lemma MergeColumnFacts(rows: Rows, attr: string, column: Column)
    ensures var r := MergeColumn(rows, attr, column);
      && r.Keys == rows.Keys + column.Keys
      && (forall k :: k in column ==> attr in r[k] && r[k][attr] == column[k])
      && (forall k :: k in rows && k !in column ==> r[k] == rows[k])
      && (forall k, a :: k in r && a != attr ==> (a in r[k] <==> k in rows && a in rows[k]))
      && (forall k, a :: k in rows && a in rows[k] && a != attr ==> r[k][a] == rows[k][a])
  {
  }

  /** Merging one more index of the column is one update of that index's record. */
  lemma MergeStep(rows: Rows, attr: string, done: Column, k: int, v: Value)
    requires k !in done
    ensures MergeColumn(rows, attr, done)[k := RowOf(MergeColumn(rows, attr, done), k)[attr := v]]
      == MergeColumn(rows, attr, done[k := v])
  {
    assert RowOf(MergeColumn(rows, attr, done), k) == RowOf(rows, k);
  }

  /** The loop that merges one attribute's column into `final`, in whatever order the dict yields. */
  method Merge(rows: Rows, attr: string, column: Column) returns (r: Rows)
    ensures r == MergeColumn(rows, attr, column)
  {
    r := rows;
    var todo := column.Keys;
    while todo != {}
      invariant todo <= column.Keys
      invariant r == MergeColumn(rows, attr, column - todo)
      decreases todo
    {
      var k := AnyIndex(todo);
      ghost var before := column - todo;
      MergeStep(rows, attr, before, k, column[k]);
      r := r[k := RowOf(r, k)[attr := column[k]]];
      todo := todo - {k};
      assert column - todo == before[k := column[k]];
    }
    assert column - todo == column;
  }

  /** The record a column contributes at index `k`: its one attribute, or nothing. */
  function Cell(attr: string, column: Column, k: int): Row {
    if k in column then map[attr := column[k]] else map[]
  }

  /** One column merged into an empty `final`: its indices, each with that attribute alone. */
  lemma MergeOne(a: string, c: Column)
    ensures MergeColumn(map[], a, c).Keys == c.Keys
    ensures forall k :: k in c ==> MergeColumn(map[], a, c)[k] == map[a := c[k]]
  {
  }

  lemma MergeKeys(rows: Rows, attr: string, column: Column)
    ensures MergeColumn(rows, attr, column).Keys == rows.Keys + column.Keys
  {
  }

  /** Merging a column adds that column's cell to each record. */
  lemma MergeRow(rows: Rows, attr: string, column: Column, k: int)
    ensures RowOf(MergeColumn(rows, attr, column), k) == RowOf(rows, k) + Cell(attr, column, k)
  {
    if k in column {
      assert RowOf(rows, k)[attr := column[k]] == RowOf(rows, k) + map[attr := column[k]];
    } else {
      assert RowOf(rows, k) + map[] == RowOf(rows, k);
    }
  }

  /**
   * Three columns merged in turn into an empty `final`: the indices of any
   * of them, each holding exactly the attributes whose column has that index.
   */
  lemma MergeThree(a1: string, c1: Column, a2: string, c2: Column, a3: string, c3: Column)
    ensures var rows := MergeColumn(MergeColumn(MergeColumn(map[], a1, c1), a2, c2), a3, c3);
      && rows.Keys == c1.Keys + c2.Keys + c3.Keys
      && forall k :: k in rows ==> rows[k] == Cell(a1, c1, k) + Cell(a2, c2, k) + Cell(a3, c3, k)
  {
    var r1 := MergeColumn(map[], a1, c1);
    var r2 := MergeColumn(r1, a2, c2);
    var r3 := MergeColumn(r2, a3, c3);
    MergeKeys(map[], a1, c1);
    MergeKeys(r1, a2, c2);
    MergeKeys(r2, a3, c3);
    forall k | k in r3
      ensures r3[k] == Cell(a1, c1, k) + Cell(a2, c2, k) + Cell(a3, c3, k)
    {
      MergeRow(map[], a1, c1, k);
      MergeRow(r1, a2, c2, k);
      MergeRow(r2, a3, c3, k);
      assert RowOf(r3, k) == r3[k];
      assert RowOf(map[], k) + Cell(a1, c1, k) == Cell(a1, c1, k);
    }
  }

  /** The attribute names a column contributes at index `k`. */
  function Named(attr: string, column: Column, k: int): set<string> {
    if k in column then {attr} else {}
  }

  /**
   * A record built from three distinct attributes' cells holds each attribute
   * exactly when that attribute's column has the index, with the column's value.
   */
  lemma ThreeCells(a1: string, c1: Column, a2: string, c2: Column, a3: string, c3: Column, k: int)
    requires a1 != a2 && a1 != a3 && a2 != a3
    ensures var row := Cell(a1, c1, k) + Cell(a2, c2, k) + Cell(a3, c3, k);
      && row.Keys == Named(a1, c1, k) + Named(a2, c2, k) + Named(a3, c3, k)
      && (k in c1 ==> row[a1] == c1[k])
      && (k in c2 ==> row[a2] == c2[k])
      && (k in c3 ==> row[a3] == c3[k])
  {
  }

  /**
   * A layer extractor over three attribute helpers: each helper's column is
   * merged into `final` in turn, and the first helper that raises aborts it.
   */
  ghost function MergedLayer(a1: string, c1: Result<Column, Error>, a2: string, c2: Result<Column, Error>,
                             a3: string, c3: Result<Column, Error>): Result<Rows, Error>
  {
    var x1 :- c1;
    var x2 :- c2;
    var x3 :- c3;
    Success(MergeColumn(MergeColumn(MergeColumn(map[], a1, x1), a2, x2), a3, x3))
  }

  /**
   * What a three-attribute layer delivers: it succeeds exactly when every
   * helper does, otherwise it raises the first helper's error; its indices are
   * the union of the helpers' indices, and each record holds an attribute
   * exactly when that helper returned the index, with the helper's value.
   */
  lemma MergedLayerFacts(a1: string, c1: Result<Column, Error>, a2: string, c2: Result<Column, Error>,
                         a3: string, c3: Result<Column, Error>)
    requires a1 != a2 && a1 != a3 && a2 != a3
    ensures var r := MergedLayer(a1, c1, a2, c2, a3, c3);
      && (r.Success? <==> c1.Success? && c2.Success? && c3.Success?)
      && (c1.Failure? ==> r == Failure(c1.error))
      && (c1.Success? && c2.Failure? ==> r == Failure(c2.error))
      && (c1.Success? && c2.Success? && c3.Failure? ==> r == Failure(c3.error))
    ensures c1.Success? && c2.Success? && c3.Success? ==>
      var rows := MergedLayer(a1, c1, a2, c2, a3, c3).value;
      && rows.Keys == c1.value.Keys + c2.value.Keys + c3.value.Keys
      && forall k :: k in rows ==>
        && rows[k].Keys == Named(a1, c1.value, k) + Named(a2, c2.value, k) + Named(a3, c3.value, k)
        && (k in c1.value ==> rows[k][a1] == c1.value[k])
        && (k in c2.value ==> rows[k][a2] == c2.value[k])
        && (k in c3.value ==> rows[k][a3] == c3.value[k])
  {
    if c1.Success? && c2.Success? && c3.Success? {
      var rows := MergedLayer(a1, c1, a2, c2, a3, c3).value;
      MergeThree(a1, c1.value, a2, c2.value, a3, c3.value);
      forall k | k in rows
        ensures rows[k].Keys == Named(a1, c1.value, k) + Named(a2, c2.value, k) + Named(a3, c3.value, k)
        ensures k in c1.value ==> rows[k][a1] == c1.value[k]
        ensures k in c2.value ==> rows[k][a2] == c2.value[k]
        ensures k in c3.value ==> rows[k][a3] == c3.value[k]
      {
        ThreeCells(a1, c1.value, a2, c2.value, a3, c3.value, k);
      }
    }
  }
}

=== FILE: mib_snmpv2.dfy ===
/**
 * The SNMPv2-MIB query: the six scalar objects of the `system` group
 * (.1.3.6.1.2.1.1.N.0 for N = 1..6), gathered into one record. The query
 * object only holds its transport, so every operation takes the `Device`.
 */
module SnmpV2 {
  import opened Wrappers
  import opened Builtins
  import opened Snmp

  /** sysDescr.0, whose presence means the device implements the MIB. */
  const SupportOid: Oid := ".1.3.6.1.2.1.1.1.0"

  /** The system group's root; node N's scalar is `<root>.N.0`. */
  const SystemRoot: Oid := ".1.3.6.1.2.1.1"

  /** The MIB's name, the one top-level key of the result. */
  const MibName: string := "SNMPv2-MIB"

  /** What `system()` returns: MIB name -> attribute -> instance key -> value. */
  type Attributes = map<string, map<int, Value>>
  type Snapshot = map<string, Attributes>

  /** `supported()`: one existence probe on sysDescr.0. */
  method Supported(d: Device) returns (validity: bool)
    ensures validity <==> d.oidExists(SupportOid)
  {
    validity := false;
    if d.oidExists(SupportOid) {
      validity := true;
    }
  }

  /** `'%s.%s.0' % (oidroot, node)`. */
  function SystemOid(node: nat): (oid: Oid)
    ensures |oid| > |SystemRoot| + 3
    ensures oid[..|SystemRoot| + 1] == SystemRoot + "."
    ensures oid[|oid| - 2..] == ".0"
    ensures oid[|SystemRoot| + 1..|oid| - 2] == Decimal(node)
    ensures ParseInt(oid[|SystemRoot| + 1..|oid| - 2]) == Some(node)
  {
    var oid := SystemRoot + "." + Decimal(node) + ".0";
    ParseDecimal(node);
    assert oid[|SystemRoot| + 1..|oid| - 2] == Decimal(node);
    oid
  }

  /** The values of the GETs on nodes 1..n, appended in node order. */
  ghost function Collected(d: Device, n: nat): seq<Value> {
    if n == 0 then [] else Collected(d, n - 1) + d.get(SystemOid(n))
  }

  /** `getvalues` once all six GETs are in: the placeholder 0, then every returned value. */
  ghost function Gathered(d: Device): seq<Value> {
    [Int(0)] + Collected(d, 6)
  }

  /** How a line of `system()` converts its value. */
  datatype Decoding = Utf8Text | Integer

  /** `getvalues[i]` converted: IndexError when the list is too short, else the conversion. */
  function Field(values: seq<Value>, i: nat, how: Decoding): Result<Value, Error> {
    if i < |values| then
      match how
      case Utf8Text => DecodeUtf8(values[i])
      case Integer => IntOf(values[i])
    else Failure(MissingValue(i))
  }

  /** How line i of `system()` converts `getvalues[i]`: sysUpTime (3) by `int()`, the rest by decoding. */
  function LineDecoding(i: nat): Decoding {
    if i == 3 then Integer else Utf8Text
  }

  /** The six attributes, each stored under the instance key 0. */
  function Record(descr: Value, objectId: Value, upTime: Value, contact: Value, name: Value, location: Value)
    : (a: Attributes)
    ensures a.Keys == {"sysDescr", "sysObjectID", "sysUpTime", "sysContact", "sysName", "sysLocation"}
    ensures forall attr :: attr in a ==> a[attr].Keys == {0}
    ensures a["sysDescr"][0] == descr && a["sysObjectID"][0] == objectId && a["sysUpTime"][0] == upTime
    ensures a["sysContact"][0] == contact && a["sysName"][0] == name && a["sysLocation"][0] == location
  {
    map["sysDescr" := map[0 := descr], "sysObjectID" := map[0 := objectId], "sysUpTime" := map[0 := upTime],
        "sysContact" := map[0 := contact], "sysName" := map[0 := name], "sysLocation" := map[0 := location]]
  }

  /** The assignments of `system()` from a finished `getvalues`, each line raising in turn. */
  function Assign(values: seq<Value>): Result<Snapshot, Error> {
    var descr :- Field(values, 1, Utf8Text);
    var objectId :- Field(values, 2, Utf8Text);
    var upTime :- Field(values, 3, Integer);
    var contact :- Field(values, 4, Utf8Text);
    var name :- Field(values, 5, Utf8Text);
    var location :- Field(values, 6, Utf8Text);
    Success(map[MibName := Record(descr, objectId, upTime, contact, name, location)])
  }

  /** What `system()` returns for the device. */
  ghost function SystemOf(d: Device): Result<Snapshot, Error> {
    Assign(Gathered(d))
  }

  /**
   * The loop of `system()`: a GET on each of nodes 1..6 in ascending order
   * (`asked`), every value returned appended to `getvalues`.
   */
  method Gather(d: Device) returns (getvalues: seq<Value>, ghost asked: seq<Oid>)
    ensures getvalues == Gathered(d)
    ensures |asked| == 6 && forall j :: 0 <= j < 6 ==> asked[j] == SystemOid(j + 1)
  {
    getvalues := [Int(0)];
    asked := [];
    for node := 1 to 7
      invariant getvalues == [Int(0)] + Collected(d, node - 1)
      invariant |asked| == node - 1
      invariant forall j :: 0 <= j < node - 1 ==> asked[j] == SystemOid(j + 1)
    {
      var oid := SystemOid(node);
      var results := d.get(oid);
      asked := asked + [oid];
      getvalues := AppendAll(getvalues, results);
    }
  }

  /** `for value in results.values(): getvalues.append(value)`. */
  method AppendAll(getvalues: seq<Value>, results: seq<Value>) returns (extended: seq<Value>)
    ensures extended == getvalues + results
  {
    extended := getvalues;
    var i := 0;
    while i < |results|
      invariant 0 <= i <= |results|
      invariant extended == getvalues + results[..i]
    {
      extended := extended + [results[i]];
      i := i + 1;
    }
    assert results[..i] == results;
  }

  /**
   * `system()`: on success the snapshot has the one key 'SNMPv2-MIB', under
   * it the six attributes each keyed by 0 alone, sysUpTime an integer and
   * the rest text; fewer than six values gathered make it fail.
   */
  method System(d: Device) returns (r: Result<Snapshot, Error>)
    ensures r == SystemOf(d)
    ensures |Collected(d, 6)| < 6 ==> r.Failure?
    ensures |Collected(d, 6)| < 6 &&
            (forall i :: 1 <= i <= |Collected(d, 6)| ==> Field(Gathered(d), i, LineDecoding(i)).Success?)
            ==> r == Failure(MissingValue(|Collected(d, 6)| + 1))
    ensures r.Success? ==>
      && r.value.Keys == {MibName}
      && r.value[MibName].Keys == {"sysDescr", "sysObjectID", "sysUpTime", "sysContact", "sysName", "sysLocation"}
      && (forall attr :: attr in r.value[MibName] ==> r.value[MibName][attr].Keys == {0})
      && r.value[MibName]["sysUpTime"][0].Int?
      && r.value[MibName]["sysDescr"][0].Text? && r.value[MibName]["sysObjectID"][0].Text?
      && r.value[MibName]["sysContact"][0].Text? && r.value[MibName]["sysName"][0].Text?
      && r.value[MibName]["sysLocation"][0].Text?
  {
    var getvalues, asked := Gather(d);
    AssignFacts(getvalues);
    if |getvalues| < 7 && forall i :: 1 <= i < |getvalues| ==> Field(getvalues, i, LineDecoding(i)).Success? {
      AssignShort(getvalues);
    }
    r := Assign(getvalues);
  }

  /** The six lines of `system()` as a whole: success, shape and types. */
  lemma AssignFacts(values: seq<Value>)
    ensures Assign(values).Success? <==>
      && |values| >= 7
      && DecodeUtf8(values[1]).Success? && DecodeUtf8(values[2]).Success? && IntOf(values[3]).Success?
      && DecodeUtf8(values[4]).Success? && DecodeUtf8(values[5]).Success? && DecodeUtf8(values[6]).Success?
    ensures Assign(values).Success? ==>
      var a := Assign(values).value;
      && a.Keys == {MibName}
      && a[MibName].Keys == {"sysDescr", "sysObjectID", "sysUpTime", "sysContact", "sysName", "sysLocation"}
      && (forall attr :: attr in a[MibName] ==> a[MibName][attr].Keys == {0})
      && a[MibName]["sysDescr"][0] == DecodeUtf8(values[1]).value
      && a[MibName]["sysObjectID"][0] == DecodeUtf8(values[2]).value
      && a[MibName]["sysUpTime"][0] == IntOf(values[3]).value
      && a[MibName]["sysContact"][0] == DecodeUtf8(values[4]).value
      && a[MibName]["sysName"][0] == DecodeUtf8(values[5]).value
      && a[MibName]["sysLocation"][0] == DecodeUtf8(values[6]).value
      && a[MibName]["sysUpTime"][0].Int?
      && a[MibName]["sysDescr"][0].Text? && a[MibName]["sysObjectID"][0].Text?
      && a[MibName]["sysContact"][0].Text? && a[MibName]["sysName"][0].Text?
      && a[MibName]["sysLocation"][0].Text?
  {
    if |values| >= 7 {
      ConversionsYieldTheirType(values[1]);
      ConversionsYieldTheirType(values[2]);
      ConversionsYieldTheirType(values[3]);
      ConversionsYieldTheirType(values[4]);
      ConversionsYieldTheirType(values[5]);
      ConversionsYieldTheirType(values[6]);
    }
  }

  /**
   * The lines of `system()` run in order, so a failing `Assign` raises the
   * error of the first line whose conversion (or `getvalues[i]`) raises.
   */
  lemma AssignFirstError(values: seq<Value>, i: nat)
    requires 1 <= i <= 6
    requires Field(values, i, LineDecoding(i)).Failure?
    requires forall j :: 1 <= j < i ==> Field(values, j, LineDecoding(j)).Success?
    ensures Assign(values) == Failure(Field(values, i, LineDecoding(i)).error)
  {
    assert Field(values, 1, LineDecoding(1)) == Field(values, 1, Utf8Text);
    assert Field(values, 2, LineDecoding(2)) == Field(values, 2, Utf8Text);
    assert Field(values, 3, LineDecoding(3)) == Field(values, 3, Integer);
    assert Field(values, 4, LineDecoding(4)) == Field(values, 4, Utf8Text);
    assert Field(values, 5, LineDecoding(5)) == Field(values, 5, Utf8Text);
  }

  /**
   * With fewer than seven entries and every present one converting,
   * `system()` raises IndexError at the first missing position.
   */
  lemma AssignShort(values: seq<Value>)
    requires |values| < 7
    requires forall i :: 1 <= i < |values| ==> Field(values, i, LineDecoding(i)).Success?
    ensures Assign(values) == Failure(MissingValue(if |values| == 0 then 1 else |values|))
  {
    var first := if |values| == 0 then 1 else |values|;
    AssignFirstError(values, first);
  }

  /** When each of the first n GETs returns exactly one value, value m - 1 came from node m. */
  lemma {:induction false} CollectedSingles(d: Device, n: nat)
    requires forall m :: 1 <= m <= n ==> |d.get(SystemOid(m))| == 1
    ensures |Collected(d, n)| == n
    ensures forall m :: 1 <= m <= n ==> Collected(d, n)[m - 1] == d.get(SystemOid(m))[0]
  {
    if n > 0 {
      CollectedSingles(d, n - 1);
    }
  }

  /**
   * When every GET returns exactly one value, `getvalues[N]` is node N's
   * value, so each attribute is read from its own OID.
   */
  lemma GatheredSingles(d: Device)
    requires forall m :: 1 <= m <= 6 ==> |d.get(SystemOid(m))| == 1
    ensures |Gathered(d)| == 7
    ensures forall m :: 1 <= m <= 6 ==> Gathered(d)[m] == d.get(SystemOid(m))[0]
  {
    CollectedSingles(d, 6);
  }
}

=== FILE: snmp.dfy ===
/**
 * What the MIB query modules see of SNMP: the values a normalized GET or
 * WALK hands back, the errors a query can raise, and the transport itself
 * as an immutable view of one device reached with one set of credentials.
 */
module Snmp {
  import opened Wrappers
  import opened Builtins
  import Utf8

  type Oid = string

  /** A value after the transport's normalization: an integer, raw octets, or text. */
  datatype Value = Int(n: int) | Octets(bytes: seq<Utf8.byte>) | Text(s: string)

  /** The exceptions the query code can raise, named by cause rather than by Python class. */
  datatype Error =
    | BadIndex(key: string)       // int(key) raised ValueError on a walked instance key
    | NotUtf8                     // UnicodeDecodeError while decoding octets
    | BadValue                    // TypeError, AttributeError or ValueError converting a value
    | MissingValue(position: nat) // IndexError: the collected list has no such position

  /**
   * The transport bound to one host and one credential set. `get` gives the
   * values of the mapping a normalized GET returns, in its order; `walk`
   * maps each instance's trailing index (as text) to its normalized value.
   * A failed request reads as no data.
   */
  datatype Device = Device(
    oidExists: Oid -> bool,
    get: Oid -> seq<Value>,
    walk: Oid -> map<string, Value>)

  function TextOf(b: seq<Utf8.byte>): (r: Result<Value, Error>)
    ensures r.Success? <==> Utf8.Decode(b).Some?
    ensures r.Success? ==> r.value == Text(Utf8.Decode(b).value)
    ensures r.Failure? ==> r.error == NotUtf8
  {
    match Utf8.Decode(b)
    case Some(s) => Success(Text(s))
    case None => Failure(NotUtf8)
  }

  /**
   * `str(bytes(v), encoding='utf-8')`. `bytes(n)` of a non-negative integer
   * is n zero bytes; of a negative one, or of a `str`, it raises.
   */
  function BytesAsText(v: Value): Result<Value, Error> {
    match v
    case Octets(b) => TextOf(b)
    case Int(n) => if n < 0 then Failure(BadValue) else TextOf(seq(n, _ => 0 as Utf8.byte))
    case Text(_) => Failure(BadValue)
  }

  /** `v.decode('utf-8')`: only octets have a `decode` method. */
  function DecodeUtf8(v: Value): Result<Value, Error> {
    match v
    case Octets(b) => TextOf(b)
    case _ => Failure(BadValue)
  }

  /** The octets as text when every one is ASCII, as `int()` reads a `bytes` literal. */
  function Ascii(b: seq<Utf8.byte>): Option<string> {
    if forall i :: 0 <= i < |b| ==> b[i] < 0x80 then Some(seq(|b|, i requires 0 <= i < |b| => b[i] as char))
    else None
  }

  /** `int(v)`: integers unchanged; text and ASCII octets parsed as a decimal literal. */
  function IntOf(v: Value): Result<Value, Error> {
    match v
    case Int(n) => Success(Int(n))
    case Text(s) => if ParseInt(s).Some? then Success(Int(ParseInt(s).value)) else Failure(BadValue)
    case Octets(b) =>
      if Ascii(b).Some? && ParseInt(Ascii(b).value).Some? then Success(Int(ParseInt(Ascii(b).value).value))
      else Failure(BadValue)
  }

  /** Every successful conversion yields the native type it promises. */
  lemma ConversionsYieldTheirType(v: Value)
    ensures BytesAsText(v).Success? ==> BytesAsText(v).value.Text?
    ensures DecodeUtf8(v).Success? ==> DecodeUtf8(v).value.Text?
    ensures IntOf(v).Success? ==> IntOf(v).value.Int?
    ensures v.Octets? ==> BytesAsText(v) == DecodeUtf8(v)
    ensures v.Int? ==> IntOf(v) == Success(v)
  {
  }
}

=== FILE: toolbox.dfy ===
/**
 * The `run` command of the toolbox: query every configured host, stage one
 * YAML snapshot per reachable host in a fresh temporary directory, and only
 * once every host has been handled replace the permanent directory's
 * contents with the staged files.
 */
module Toolbox {
  import opened Wrappers

  type Path = string
  type Host = string
  /** A directory's files: file name -> content. */
  type Files = map<string, string>

  /** The filesystem as far as the run touches it: every directory and its files. */
  class FileSystem {
    var dirs: map<Path, Files>

    constructor(dirs: map<Path, Files>)
      ensures this.dirs == dirs
    {
      this.dirs := dirs;
    }

    /** `os.path.isdir`. */
    predicate IsDir(p: Path)
      reads this
    {
      p in dirs
    }

    /** `tempfile.mkdtemp()`: `unused` is the new name it picks. */
    method MakeTempDir(unused: Path) returns (p: Path)
      requires unused !in dirs
      modifies this
      ensures p == unused && dirs == old(dirs)[p := map[]]
    {
      p := unused;
      dirs := dirs[p := map[]];
    }

    /** `os.makedirs` of a missing directory. */
    method MakeDirs(p: Path)
      requires p !in dirs
      modifies this
      ensures dirs == old(dirs)[p := map[]]
    {
      dirs := dirs[p := map[]];
    }

    /** Deleting every file of a directory. */
    method DeleteFiles(p: Path)
      requires p in dirs
      modifies this
      ensures dirs == old(dirs)[p := map[]]
    {
      dirs := dirs[p := map[]];
    }

    /** Opening `<dir>/<name>` for writing and writing `content`: created or overwritten. */
    method WriteFile(dir: Path, name: string, content: string)
      requires dir in dirs
      modifies this
      ensures dirs == old(dirs)[dir := old(dirs)[dir][name := content]]
    {
      dirs := dirs[dir := dirs[dir][name := content]];
    }

    /** Moving every file of `src` into `dst`, replacing files of the same name. */
    method MoveFiles(src: Path, dst: Path)
      requires src in dirs && dst in dirs && src != dst
      modifies this
      ensures dirs == old(dirs)[src := map[]][dst := old(dirs)[dst] + old(dirs)[src]]
    {
      dirs := dirs[src := map[]][dst := dirs[dst] + dirs[src]];
    }

    /** `os.rmdir`, which only removes an empty directory. */
    method RemoveDir(p: Path)
      requires p in dirs && dirs[p] == map[]
      modifies this
      ensures dirs == old(dirs) - {p}
    {
      dirs := dirs - {p};
    }
  }

  /**
   * The collaborators the run calls per host: credential validation (None for
   * no usable credentials), the full device query (None when it raises), and
   * the YAML rendering of a snapshot.
   */
  datatype Services<!Credentials, !Snapshot> = Services(
    credentials: Host -> Option<Credentials>,
    everything: Credentials -> Option<Snapshot>,
    dict2yaml: Snapshot -> string)

  /** The staged file's name for a host: `<host>.yaml`. */
  function FileName(h: Host): (name: string)
    ensures |name| == |h| + 5 && name[..|h|] == h && name[|h|..] == ".yaml"
  {
    h + ".yaml"
  }

  /**
   * One pass of the host loop over the staged files: a host without
   * credentials is skipped, a query that raises ends the run (None), and
   * otherwise the host's file is written, replacing one of the same name.
   */
  function StageHost<C, S>(net: Services<C, S>, staged: Option<Files>, h: Host): Option<Files> {
    match staged
    case None => None
    case Some(prior) =>
      match net.credentials(h)
      case None => Some(prior)
      case Some(c) =>
        match net.everything(c)
        case None => None
        case Some(data) => Some(prior[FileName(h) := net.dict2yaml(data)])
  }

  /**
   * The temporary directory's files after the host loop has handled `hosts`
   * in order, or None once a query has raised.
   */
  function Staged<C, S>(net: Services<C, S>, hosts: seq<Host>): Option<Files>
    decreases |hosts|
  {
    if hosts == [] then Some(map[])
    else StageHost(net, Staged(net, hosts[..|hosts| - 1]), hosts[|hosts| - 1])
  }

  lemma StagedNext<C, S>(net: Services<C, S>, hosts: seq<Host>, i: nat)
    requires i < |hosts|
    ensures Staged(net, hosts[..i + 1]) == StageHost(net, Staged(net, hosts[..i]), hosts[i])
  {
    assert hosts[..i + 1][..i] == hosts[..i];
  }

  /** A host is answered when it has no credentials (and is skipped) or its query does not raise. */
  predicate Answered<C, S>(net: Services<C, S>, h: Host) {
    net.credentials(h).Some? ==> net.everything(net.credentials(h).value).Some?
  }

  /** Once a query has raised, no later host brings the run back. */
  lemma {:induction false} RaisedSticks<C, S>(net: Services<C, S>, hosts: seq<Host>, j: nat)
    requires j <= |hosts| && Staged(net, hosts[..j]).None?
    ensures Staged(net, hosts).None?
    decreases |hosts|
  {
    if j < |hosts| {
      assert hosts[..|hosts| - 1][..j] == hosts[..j];
      RaisedSticks(net, hosts[..|hosts| - 1], j);
    } else {
      assert hosts[..j] == hosts;
    }
  }

  /** The commit's steps leave the permanent directory holding the staged files and no temporary one. */
  lemma CommitResult(dirs: map<Path, Files>, tempDir: Path, permDir: Path)
    requires tempDir != permDir && tempDir in dirs
    ensures dirs[permDir := map[]][tempDir := map[]][permDir := map[] + dirs[tempDir]] - {tempDir}
      == dirs[permDir := dirs[tempDir]] - {tempDir}
  {
    assert map[] + dirs[tempDir] == dirs[tempDir];
  }

  /**
   * The host loop of `do_run`: each host's credentials are validated in
   * order (`validated`), a host without them is skipped, and a host with
   * them has its snapshot written to `<host>.yaml` in the temporary
   * directory. A query that raises ends the loop with `ok` false; nothing
   * outside the temporary directory changes either way.
   */
  method StageHosts<C, S>(fs: FileSystem, net: Services<C, S>, hosts: seq<Host>, tempDir: Path)
    returns (ok: bool, ghost validated: seq<Host>)
    requires tempDir in fs.dirs && fs.dirs[tempDir] == map[]
    modifies fs
    ensures ok <==> Staged(net, hosts).Some?
    ensures ok ==> validated == hosts && fs.dirs == old(fs.dirs)[tempDir := Staged(net, hosts).value]
    ensures !ok ==>
      && 0 < |validated| <= |hosts| && validated == hosts[..|validated|]
      && Staged(net, validated[..|validated| - 1]).Some? && Staged(net, validated).None?
      && fs.dirs == old(fs.dirs)[tempDir := Staged(net, validated[..|validated| - 1]).value]
  {
    validated := [];
    var i := 0;
    while i < |hosts|
      invariant 0 <= i <= |hosts|
      invariant validated == hosts[..i]
      invariant Staged(net, hosts[..i]).Some?
      invariant fs.dirs == old(fs.dirs)[tempDir := Staged(net, hosts[..i]).value]
    {
      var host := hosts[i];
      var params := net.credentials(host);
      validated := validated + [host];
      StagedNext(net, hosts, i);
      if params.None? {
        i := i + 1;
        continue;
      }
      var data := net.everything(params.value);
      if data.None? {
        assert validated == hosts[..i + 1];
        RaisedSticks(net, hosts, i + 1);
        return false, validated;
      }
      var yaml := net.dict2yaml(data.value);
      fs.WriteFile(tempDir, FileName(host), yaml);
      i := i + 1;
    }
    assert hosts[..i] == hosts;
    ok := true;
  }

  /**
   * The commit of `do_run`: the permanent directory is emptied or created,
   * receives every staged file, and the temporary directory is removed.
   */
  method Commit(fs: FileSystem, tempDir: Path, permDir: Path)
    requires tempDir in fs.dirs && tempDir != permDir
    modifies fs
    ensures fs.dirs == old(fs.dirs)[permDir := old(fs.dirs)[tempDir]] - {tempDir}
  {
    CommitResult(fs.dirs, tempDir, permDir);
    if fs.IsDir(permDir) {
      fs.DeleteFiles(permDir);
    } else {
      fs.MakeDirs(permDir);
    }
    fs.MoveFiles(tempDir, permDir);
    fs.RemoveDir(tempDir);
  }

  /**
   * `do_run`. `tempName` is the fresh directory `mkdtemp` creates. After a
   * run that gets through every host, the permanent directory holds exactly
   * the staged files and the temporary directory is gone; after a query
   * raises, every directory but the new temporary one is as it was.
   */
  method DoRun<C, S>(fs: FileSystem, net: Services<C, S>, hosts: seq<Host>, permDir: Path, tempName: Path)
    returns (ok: bool, ghost validated: seq<Host>)
    requires tempName !in fs.dirs && tempName != permDir
    modifies fs
    ensures ok <==> Staged(net, hosts).Some?
    ensures ok ==> validated == hosts
    ensures ok ==> fs.dirs == old(fs.dirs)[permDir := Staged(net, hosts).value] - {tempName}
    ensures !ok ==>
      && 0 < |validated| <= |hosts| && validated == hosts[..|validated|]
      && Staged(net, validated[..|validated| - 1]).Some? && Staged(net, validated).None?
      && fs.dirs == old(fs.dirs)[tempName := Staged(net, validated[..|validated| - 1]).value]
  {
    var tempDir := fs.MakeTempDir(tempName);
    fs.DeleteFiles(tempDir);
    ok, validated := StageHosts(fs, net, hosts, tempDir);
    if !ok {
      return;
    }
    assert old(fs.dirs)[tempDir := Staged(net, hosts).value][permDir := Staged(net, hosts).value] - {tempDir}
      == old(fs.dirs)[permDir := Staged(net, hosts).value] - {tempDir};
    Commit(fs, tempDir, permDir);
  }

  /** Distinct hosts get distinct staged files. */
  lemma FileNameInjective(a: Host, b: Host)
    ensures FileName(a) == FileName(b) ==> a == b
  {
    if FileName(a) == FileName(b) {
      assert |a| == |b|;
      assert a == FileName(a)[..|a|];
    }
  }

  /** The loop gets through every host exactly when no host with credentials has a query that raises. */
  lemma {:induction false} StagedSucceeds<C, S>(net: Services<C, S>, hosts: seq<Host>)
    ensures Staged(net, hosts).Some? <==> forall i :: 0 <= i < |hosts| ==> Answered(net, hosts[i])
    decreases |hosts|
  {
    if hosts != [] {
      var init := hosts[..|hosts| - 1];
      StagedSucceeds(net, init);
      assert forall i :: 0 <= i < |init| ==> init[i] == hosts[i];
    }
  }

  /** The staged files are exactly `<host>.yaml` for the configured hosts that have credentials. */
  lemma {:induction false} StagedFiles<C, S>(net: Services<C, S>, hosts: seq<Host>)
    requires Staged(net, hosts).Some?
    ensures Staged(net, hosts).value.Keys == set h | h in hosts && net.credentials(h).Some? :: FileName(h)
    decreases |hosts|
  {
    if hosts != [] {
      var init := hosts[..|hosts| - 1];
      var last := hosts[|hosts| - 1];
      StagedFiles(net, init);
      assert hosts == init + [last];
      assert forall h :: h in hosts <==> h in init || h == last;
    }
  }

  /**
   * A host with credentials has its file hold the YAML of its snapshot; a
   * repeated host rewrites the same content.
   */
  lemma {:induction false} StagedContent<C, S>(net: Services<C, S>, hosts: seq<Host>, h: Host)
    requires Staged(net, hosts).Some? && h in hosts && net.credentials(h).Some?
    ensures net.everything(net.credentials(h).value).Some?
    ensures FileName(h) in Staged(net, hosts).value
    ensures Staged(net, hosts).value[FileName(h)] == net.dict2yaml(net.everything(net.credentials(h).value).value)
    decreases |hosts|
  {
    var init := hosts[..|hosts| - 1];
    var last := hosts[|hosts| - 1];
    assert hosts == init + [last];
    if h == last {
    } else {
      assert h in init;
      StagedContent(net, init, h);
      FileNameInjective(h, last);
    }
  }

  /** A host skipped for lack of credentials, or never configured, has no staged file. */
  lemma NoFileWithoutCredentials<C, S>(net: Services<C, S>, hosts: seq<Host>, h: Host)
    requires Staged(net, hosts).Some?
    requires h !in hosts || net.credentials(h).None?
    ensures FileName(h) !in Staged(net, hosts).value
  {
    StagedFiles(net, hosts);
    forall g | g in hosts && net.credentials(g).Some?
      ensures FileName(g) != FileName(h)
    {
      FileNameInjective(g, h);
    }
  }
}

=== FILE: utf8.dfy ===
/**
 * UTF-8 as Python's 'utf-8' codec applies it: the well-formed byte
 * sequences of section 4 of RFC 3629 (no overlong forms, no surrogates,
 * nothing above U+10FFFF). Dafny's `char` is a Unicode scalar value, so a
 * decoded string is a `seq<char>`.
 */
module Utf8 {
  import opened Wrappers

  newtype byte = x: int | 0 <= x < 0x100

  predicate IsTail(b: byte) {
    0x80 <= b <= 0xBF
  }

  /** The second byte's range for a three-byte sequence led by `lead` (RFC 3629 UTF8-3). */
  predicate SecondOfThree(lead: byte, b: byte) {
    if lead == 0xE0 then 0xA0 <= b <= 0xBF
    else if lead == 0xED then 0x80 <= b <= 0x9F
    else IsTail(b)
  }

  /** The second byte's range for a four-byte sequence led by `lead` (RFC 3629 UTF8-4). */
  predicate SecondOfFour(lead: byte, b: byte) {
    if lead == 0xF0 then 0x90 <= b <= 0xBF
    else if lead == 0xF4 then 0x80 <= b <= 0x8F
    else IsTail(b)
  }

  /** The character the first well-formed sequence of `b` encodes and its length, or None. */
  function DecodeFirst(b: seq<byte>): (r: Option<(char, nat)>)
    requires |b| > 0
    ensures r.Some? ==> 1 <= r.value.1 <= |b|
  {
    var b0 := b[0] as int;
    if b0 <= 0x7F then
      Some((b0 as char, 1))
    else if 0xC2 <= b0 <= 0xDF && |b| >= 2 && IsTail(b[1]) then
      Some((((b0 - 0xC0) * 0x40 + (b[1] as int - 0x80)) as char, 2))
    else if 0xE0 <= b0 <= 0xEF && |b| >= 3 && SecondOfThree(b[0], b[1]) && IsTail(b[2]) then
      Some((((b0 - 0xE0) * 0x1000 + (b[1] as int - 0x80) * 0x40 + (b[2] as int - 0x80)) as char, 3))
    else if 0xF0 <= b0 <= 0xF4 && |b| >= 4 && SecondOfFour(b[0], b[1]) && IsTail(b[2]) && IsTail(b[3]) then
      Some((((b0 - 0xF0) * 0x40000 + (b[1] as int - 0x80) * 0x1000
             + (b[2] as int - 0x80) * 0x40 + (b[3] as int - 0x80)) as char, 4))
    else
      None
  }

  /** `bytes.decode('utf-8')`: the text, or None where Python raises UnicodeDecodeError. */
  function Decode(b: seq<byte>): Option<string>
    decreases |b|
  {
    if b == [] then Some([])
    else
      match DecodeFirst(b)
      case None => None
      case Some((c, n)) =>
        match Decode(b[n..])
        case None => None
        case Some(rest) => Some([c] + rest)
  }

  function EncodeChar(c: char): (r: seq<byte>)
    ensures 1 <= |r| <= 4
  {
    var x := c as int;
    if x < 0x80 then
      [x as byte]
    else if x < 0x800 then
      [(0xC0 + x / 0x40) as byte, (0x80 + x % 0x40) as byte]
    else if x < 0x10000 then
      [(0xE0 + x / 0x1000) as byte, (0x80 + x / 0x40 % 0x40) as byte, (0x80 + x % 0x40) as byte]
    else
      [(0xF0 + x / 0x40000) as byte, (0x80 + x / 0x1000 % 0x40) as byte,
       (0x80 + x / 0x40 % 0x40) as byte, (0x80 + x % 0x40) as byte]
  }

  /** `str.encode('utf-8')`. */
  function Encode(s: string): seq<byte>
  {
    if s == [] then [] else EncodeChar(s[0]) + Encode(s[1..])
  }

  lemma DecodeFirstEncodeChar(c: char, rest: seq<byte>)
    ensures DecodeFirst(EncodeChar(c) + rest) == Some((c, |EncodeChar(c)|))
  {
    var x := c as int;
    if x < 0x80 {
    } else if x < 0x800 {
      DecodeTwoBytes(c, rest);
    } else if x < 0x10000 {
      DecodeThreeBytes(c, rest);
    } else {
      DecodeFourBytes(c, rest);
    }
  }

  lemma DecodeTwoBytes(c: char, rest: seq<byte>)
    requires 0x80 <= c as int < 0x800
    ensures DecodeFirst(EncodeChar(c) + rest) == Some((c, 2))
  {
    var x := c as int;
    var q, r := x / 0x40, x % 0x40;
    assert x == q * 0x40 + r;
    assert 2 <= q < 0x20;
    var b := EncodeChar(c) + rest;
    assert b[0] as int == 0xC0 + q && b[1] as int == 0x80 + r;
  }

  lemma DecodeThreeBytes(c: char, rest: seq<byte>)
    requires 0x800 <= c as int < 0x10000
    ensures DecodeFirst(EncodeChar(c) + rest) == Some((c, 3))
  {
    var x := c as int;
    var hi, r := x / 0x40, x % 0x40;
    var q, m := hi / 0x40, hi % 0x40;
    assert x == hi * 0x40 + r;
    assert hi == q * 0x40 + m;
    assert x / 0x1000 == q;
    assert 0 <= q < 0x10;
    assert q == 0 ==> m >= 0x20;
    assert q == 0xD ==> m < 0x20;
    var b := EncodeChar(c) + rest;
    assert b[0] as int == 0xE0 + q && b[1] as int == 0x80 + m && b[2] as int == 0x80 + r;
    assert x == q * 0x1000 + m * 0x40 + r;
  }

  lemma DecodeFourBytes(c: char, rest: seq<byte>)
    requires 0x10000 <= c as int
    ensures DecodeFirst(EncodeChar(c) + rest) == Some((c, 4))
  {
    var x := c as int;
    var mid, r := x / 0x40, x % 0x40;
    var top, m := mid / 0x40, mid % 0x40;
    var q, t := top / 0x40, top % 0x40;
    assert x == mid * 0x40 + r;
    assert mid == top * 0x40 + m;
    assert top == q * 0x40 + t;
    assert x / 0x1000 == top;
    assert x / 0x40000 == q;
    assert x < 0x110000;
    assert 0 <= q <= 4;
    assert q == 0 ==> t >= 0x10;
    assert q == 4 ==> t < 0x10;
    var b := EncodeChar(c) + rest;
    assert b[0] as int == 0xF0 + q && b[1] as int == 0x80 + t;
    assert b[2] as int == 0x80 + m && b[3] as int == 0x80 + r;
    assert x == q * 0x40000 + t * 0x1000 + m * 0x40 + r;
  }

  lemma Split(q: int, r: int)
    requires 0 <= r < 0x40
    ensures (q * 0x40 + r) / 0x40 == q && (q * 0x40 + r) % 0x40 == r
  {
  }

  lemma EncodeTwo(b0: byte, b1: byte)
    requires 0xC2 <= b0 <= 0xDF && IsTail(b1)
    ensures var x := (b0 as int - 0xC0) * 0x40 + (b1 as int - 0x80);
      0x80 <= x < 0x800 && EncodeChar(x as char) == [b0, b1]
  {
    Split(b0 as int - 0xC0, b1 as int - 0x80);
  }

  lemma EncodeThree(b0: byte, b1: byte, b2: byte)
    requires 0xE0 <= b0 <= 0xEF && SecondOfThree(b0, b1) && IsTail(b2)
    ensures var x := (b0 as int - 0xE0) * 0x1000 + (b1 as int - 0x80) * 0x40 + (b2 as int - 0x80);
      (0x800 <= x < 0xD800 || 0xE000 <= x < 0x10000) && EncodeChar(x as char) == [b0, b1, b2]
  {
    var hi := (b0 as int - 0xE0) * 0x40 + (b1 as int - 0x80);
    var x := hi * 0x40 + (b2 as int - 0x80);
    Split(hi, b2 as int - 0x80);
    Split(b0 as int - 0xE0, b1 as int - 0x80);
    assert x / 0x40 == hi;
    assert x / 0x1000 == hi / 0x40;
  }

  lemma EncodeFour(b0: byte, b1: byte, b2: byte, b3: byte)
    requires 0xF0 <= b0 <= 0xF4 && SecondOfFour(b0, b1) && IsTail(b2) && IsTail(b3)
    ensures var x := (b0 as int - 0xF0) * 0x40000 + (b1 as int - 0x80) * 0x1000
                     + (b2 as int - 0x80) * 0x40 + (b3 as int - 0x80);
      0x10000 <= x < 0x110000 && EncodeChar(x as char) == [b0, b1, b2, b3]
  {
    var top := (b0 as int - 0xF0) * 0x40 + (b1 as int - 0x80);
    var mid := top * 0x40 + (b2 as int - 0x80);
    var x := mid * 0x40 + (b3 as int - 0x80);
    Split(mid, b3 as int - 0x80);
    Split(top, b2 as int - 0x80);
    Split(b0 as int - 0xF0, b1 as int - 0x80);
    assert x / 0x40 == mid;
    assert x / 0x1000 == mid / 0x40;
    assert x / 0x40000 == top / 0x40;
  }

  lemma DecodeFirstIsEncoding(b: seq<byte>)
    requires |b| > 0 && DecodeFirst(b).Some?
    ensures EncodeChar(DecodeFirst(b).value.0) == b[..DecodeFirst(b).value.1]
  {
    var n := DecodeFirst(b).value.1;
    if n == 2 {
      EncodeTwo(b[0], b[1]);
    } else if n == 3 {
      EncodeThree(b[0], b[1], b[2]);
    } else if n == 4 {
      EncodeFour(b[0], b[1], b[2], b[3]);
    }
  }

  /** Decoding what was encoded gives the text back. */
  lemma {:induction false} DecodeEncode(s: string)
    ensures Decode(Encode(s)) == Some(s)
    decreases |s|
  {
    if s != [] {
      var e, tail := EncodeChar(s[0]), Encode(s[1..]);
      assert Encode(s) == e + tail;
      DecodeFirstEncodeChar(s[0], tail);
      assert (e + tail)[|e|..] == tail;
      DecodeEncode(s[1..]);
      assert Decode(e + tail) == Some([s[0]] + s[1..]);
      assert [s[0]] + s[1..] == s;
    }
  }

  /** Decoding accepts only what encoding produces: a successful decode re-encodes to its input. */
  lemma {:induction false} EncodeDecode(b: seq<byte>)
    requires Decode(b).Some?
    ensures Encode(Decode(b).value) == b
    decreases |b|
  {
    if b != [] {
      var (c, n) := DecodeFirst(b).value;
      var rest := Decode(b[n..]).value;
      assert Decode(b) == Some([c] + rest);
      DecodeFirstIsEncoding(b);
      EncodeDecode(b[n..]);
      var s := [c] + rest;
      assert s[0] == c && s[1..] == rest;
      assert Encode(s) == EncodeChar(c) + Encode(rest);
      assert b == b[..n] + b[n..];
    }
  }

  /**
   * Bytes that never occur in well-formed UTF-8 are refused wherever they
   * stand: 0xC0 and 0xC1 (which could only start an overlong form) and
   * everything from 0xF5 up (beyond U+10FFFF, or not UTF-8 at all).
   */
  lemma {:induction false} AcceptedBytes(b: seq<byte>)
    ensures Decode(b).Some? ==> forall k :: 0 <= k < |b| ==> b[k] != 0xC0 && b[k] != 0xC1 && b[k] < 0xF5
  {
    if b != [] && Decode(b).Some? {
      var n := DecodeFirst(b).value.1;
      AcceptedBytes(b[n..]);
      forall k | 0 <= k < |b|
        ensures b[k] != 0xC0 && b[k] != 0xC1 && b[k] < 0xF5
      {
        if k >= n {
          assert b[k] == b[n..][k - n];
        }
      }
    }
  }

  /** A run of NUL bytes (what Python's `bytes(n)` gives) decodes to as many U+0000. */
  lemma {:induction false} DecodeZeros(n: nat)
    ensures Decode(seq(n, _ => 0 as byte)) == Some(seq(n, _ => 0 as char))
  {
    if n > 0 {
      var z := seq(n, _ => 0 as byte);
      var rest := seq(n - 1, _ => 0 as byte);
      assert z[0] == 0 && z[1..] == rest;
      assert DecodeFirst(z) == Some((0 as char, 1));
      DecodeZeros(n - 1);
      assert Decode(z) == Some([0 as char] + seq(n - 1, _ => 0 as char));
      assert [0 as char] + seq(n - 1, _ => 0 as char) == seq(n, _ => 0 as char);
    } else {
      assert seq(n, _ => 0 as byte) == [];
      assert seq(n, _ => 0 as char) == [];
    }
  }
}

=== FILE: wrappers.dfy ===
/** Option and Result, the failure-compatible wrappers used for Python's exceptions. */
module Wrappers {

  datatype Option<+T> = None | Some(value: T)

  datatype Result<+T, +E> = Success(value: T) | Failure(error: E) {

    predicate IsFailure() {
      Failure?
    }

    function PropagateFailure<U>(): Result<U, E>
      requires Failure?
    {
      Failure(error)
    }

    function Extract(): T
      requires Success?
    {
      value
    }
  }
}
